=== FILE: README.md ===
# XML Styled Viewer — a Dafny model of its transformation core and folder navigation

XML Styled Viewer is a desktop viewer that renders an XML file through "its"
XSLT stylesheet and shows the HTML. This project models two parts of it and
proves properties of the model.

The first part is the transformer (`transformer.py`). Its steps are:

- Read the `href` of the `xml-stylesheet` processing instruction nearest to the
  root element.
- Enforce the naming rule: the stylesheet must be called `<xml-stem>.xsl`.
  - An `href` naming another file is a policy error, whatever is on disk.
  - With no usable `href`, the stylesheet next to the XML file is used.
  - A chosen file that does not exist is a not-found error.
- Transform the document.
- Add a fixed style block just before the first `</head>`.
- For files on disk, add a `<meta charset>` line after the first `<head…>` tag,
  unless a meta charset is already present.
- Write the file in the stylesheet's declared output encoding. The encoding
  name is normalised: Shift_JIS aliases map to `Shift_JIS`, and the default is
  `UTF-8`.

The second part is the main window's folder navigation (`main_window.py`):

- The browser-like history with back, forward and up.
- Which buttons are enabled.
- The name of the temporary preview file.
- The checks on a file dropped onto the view.

Modules, one per component:

| module | file | models |
|---|---|---|
| `Wrappers` | wrappers.dfy | `Option` and `Result`, standing for `None` and for raised exceptions |
| `Text` | text.dfy | `str.isspace`, `str.strip`, ASCII `str.lower`, `str.lower().find` |
| `Paths` | paths.dfy | resolved absolute paths; `name`, `stem`, `suffix` and `with_suffix` by pathlib's rules; the lexical part of `(dir / href).resolve()`; the file system as sets of files and directories |
| `Charset` | charset.dfy | `_normalize_charset`, as written and corrected; `_get_output_encoding_from_xsl` |
| `Markup` | markup.dfy | `_inject_custom_css`, `_has_meta_charset` (the regular expression as a predicate), `_inject_meta_charset` |
| `StylesheetPi` | stylesheet_pi.dfy | `shlex.split` (POSIX mode), the pseudo-attribute dictionary, `_read_stylesheet_href_from_pi` |
| `Resolver` | resolver.dfy | `_get_expected_xsl_name`, `_resolve_xsl_path` |
| `Pipeline` | pipeline.dfy | `_require_xml_path`, `_load_xml_tree`, `transform_to_html_string`, `transform_to_html_file`, `transform_to_debug_html_file` |
| `FolderHistory` | folder_history.dfy | `_navigate_to_folder`, `_on_folder_back`, `_on_folder_forward`, `_on_folder_up`, `_update_folder_nav_buttons` |
| `Preview` | preview.dfy | `_get_preview_html_path` |
| `Drop` | drop.dfy | `open_xml_via_drop` |

The XML/XSLT library is the `Pipeline.Engine` record of three given functions:

- `parseXml` gives the nodes before the root element, nearest first, or the parse error.
- `transform` parses and compiles the stylesheet, applies it and serialises the result, or gives the error.
- `xslOutput` gives what the stylesheet says in `xsl:output`.

The file system is `Paths.Disk`. The SHA-1 of a path and the temporary directory are parameters.

Behaviour that may surprise; the model follows the code:

- **Empty instructions.** An `xml-stylesheet` instruction with empty text does
  not stop the backward scan; it is skipped
  (`StylesheetPi.ScanHrefNearestWins`). An instruction with text but no `href`
  does stop it, with no `href`.
- **Existing meta charset.** The meta line is left out whenever any meta
  charset is present, even one naming a different encoding. So the written
  file is not guaranteed to declare the encoding it is written in. Only a
  document without one gets the written encoding
  (`Pipeline.PostProcessingRecoversRaw`, `Markup.InjectMetaCharsetInverse`).
- **Meta search also matches `<header`.** The search for `<head` also matches
  `<header`. The meta line goes after the first `>` following that match,
  wherever the match is.
- **Blank encoding.** The code normalises a declared encoding of white space
  only to the empty name (transformer.py:184). It then builds text with
  `<meta charset="">` (transformer.py:226) and fails in `str.encode` with
  `LookupError` before anything is written (transformer.py:232). The model's pipeline uses the corrected normaliser instead (see
  Findings and Left out).
- **Stale navigation buttons.** Back and Forward move the index before the
  folder is checked, and the buttons are refreshed only after a successful
  navigation. Stepping onto a vanished folder leaves the buttons showing the
  old state (see Findings).

## Model

| member | source | states |
|---|---|---|
| Text.Strip | transformer.py:166 | the result begins and ends with a non-space, and is empty exactly when the input is all white space |
| Text.StripKeepsMiddle | transformer.py:166 | the input is white space, then the stripped result, then white space: only white space is cut, from both ends |
| Text.FindFromStart | transformer.py:126-127 | searching the lower-cased text from the start finds the first occurrence of the pattern, and finds nothing exactly when there is none |
| Paths.WithSuffixRoundTrip | transformer.py:229 | replacing a path's suffix by a simple suffix and reading it back gives that suffix and keeps the stem |
| Paths.JoinResolveName | transformer.py:104 | resolving an `href` against the XML file's folder lands on a file named like the `href`'s last component |
| Charset.NormalizeCharsetAsWritten | transformer.py:162-170 | absent or empty names give `UTF-8`, but a name of white space only gives the empty name |
| Charset.AsWrittenIdempotentUnlessBlank | transformer.py:162-170 | as written, normalising twice agrees with normalising once exactly when the input is not white space only |
| Charset.NormalizeCharset | transformer.py:162-170 | the corrected normaliser: never empty, never padded with white space; absent and blank give `UTF-8`; every Shift_JIS alias in any case gives `Shift_JIS`; every other name comes back trimmed |
| Charset.NormalizedIsFixed | transformer.py:162-170 | a non-empty name without surrounding white space that is not a non-canonical Shift_JIS spelling is passed through unchanged |
| Charset.NormalizeCharsetIdempotent | transformer.py:162-170 | normalising a normalised name changes nothing |
| Charset.CorrectionOnlyAffectsBlank | transformer.py:164-166 | the as-written and the corrected normaliser differ exactly on names of white space only |
| Charset.OutputEncoding | transformer.py:172-187 | never fails; a parse error, a missing `xsl:output` or a missing `encoding` give `UTF-8`; a declared encoding is normalised; the result is itself normalised |
| Markup.CssInsertionPoint | transformer.py:126-130 | the style block goes at the first case-insensitive `</head>`, or at the start when there is none |
| Markup.InjectCustomCss | transformer.py:119-132 | the style block is inserted immediately before the first `</head>` (any case) or prepended when there is none, and every other character is kept in order |
| Markup.InjectCustomCssInverse | transformer.py:124-132 | cutting the style block out at the insertion point gives back the input exactly |
| Markup.HasMetaCharset | transformer.py:134-136 | true exactly when the text contains `<meta`, white space, a stretch without `>`, then `charset`, optional white space and `=`, letters in any case |
| Markup.MetaInsertion | transformer.py:146-160 | after the first `>` following the first `<head` (so `<header` too), with a line break first; at the very start when there is no `<head` or no `>` after it |
| Markup.InjectMetaCharset | transformer.py:138-160 | unchanged when a meta charset is present; otherwise the meta line spliced in where `MetaInsertion` says with all else kept; the result always has a meta charset |
| Markup.InjectMetaCharsetIdempotent | transformer.py:143-160 | injecting again, with any charset, changes nothing |
| Markup.InjectMetaCharsetInverse | transformer.py:146-160 | the inserted meta text sits at the insertion point and cutting it out gives back the input |
| StylesheetPi.TokenizeQuoteFree | transformer.py:66 | on text without quotes, tokenising is splitting into maximal runs of non-white-space |
| StylesheetPi.SplitAttr | transformer.py:69-71 | a token without `=` is skipped; otherwise it is the key, `=`, and the value, the key containing no `=` |
| StylesheetPi.AttrsHasKey | transformer.py:67-71 | a key is in the dictionary exactly when some token carries it |
| StylesheetPi.AttrsLastWins | transformer.py:67-71 | a key's value comes from the last token carrying that key |
| StylesheetPi.TokenizeAttrs | transformer.py:64-66 | text of quoted pseudo-attributes such as `type="text/xsl" href="a.xsl"` splits into the `key=value` tokens in order, quotes dropped |
| StylesheetPi.UnclosedQuoteFails | transformer.py:66 | a pseudo-attribute whose closing quote is missing makes the split, and so reading the `href`, fail |
| StylesheetPi.SplitAttrToken | transformer.py:69-70 | splitting `key=value` at the first `=` gives back the key and the value when the key has no `=` |
| StylesheetPi.ReadHrefQuoted | transformer.py:64-72 | for quoted pseudo-attributes the `href` read is the value of the last one named `href`, and there is none exactly when none is so named |
| StylesheetPi.ScanHrefNearestWins | transformer.py:59-75 | the nearest `xml-stylesheet` instruction with text decides alone, even without an `href`; empty ones, other targets and comments are passed over; with none, there is no `href` |
| Resolver.ExpectedXslName | transformer.py:47-52 | the expected name ends in `.xsl`; for a named XML file its suffix is `.xsl`, its stem the XML stem, and it is the name `with_suffix(".xsl")` gives |
| Resolver.Candidate | transformer.py:89-106 | a non-empty `href` with another last component is a policy error; a matching one is resolved against the XML folder; otherwise the expected name in that folder |
| Resolver.ResolveXslPath | transformer.py:77-115 | a returned stylesheet exists and has the expected name; a not-found error names a missing candidate; a policy error comes from the rules alone |
| Resolver.MismatchFailsOnEveryDisk | transformer.py:92-102 | a mismatching `href` is a policy error on every disk, before any existence check |
| Resolver.FallbackNextToXml | transformer.py:105-113 | an absent or empty `href` selects `<stem>.xsl` beside the XML file exactly when it exists, and otherwise reports it missing |
| Resolver.ResolveDependsOnlyOnCandidate | transformer.py:104-115 | the disk affects the outcome only through the existence of the candidate |
| Resolver.SiblingFolderHref | transformer.py:104 | `../<folder>/<stem>.xsl` selects that name in the sibling folder |
| Pipeline.LocateStylesheet | transformer.py:195-196 | a located stylesheet exists, has the expected name and belongs to an existing XML file; a missing XML file is the first error, then a parse error, then an unreadable instruction; for a readable document the outcome is the resolver's for the `href` the scan reads, its error wrapped |
| Pipeline.ForeignStylesheetRejected | transformer.py:92-102 | when the nearest instruction names a stylesheet other than `<stem>.xsl`, both the string and the file entry points fail with the policy error, on every disk |
| Pipeline.TransformToHtmlString | transformer.py:191-205 | the missing-path and missing-file errors come first; then the stylesheet location's error or the transformation's error is passed on; when both succeed the call succeeds, with the transformation output and the style block added |
| Pipeline.WithSuffixChecked | transformer.py:229 | `with_suffix` fails exactly on a path without a name; otherwise it stays in the same folder and swaps the suffix |
| Pipeline.TransformToHtmlFile | transformer.py:207-233 | an error of the HTML string is passed on unchanged, then an error of the output path; when both succeed the call succeeds; the written text has a meta charset and is the HTML string with the meta line for the written encoding; the encoding is normalised and comes from the stylesheet; the default path is beside the XML file with `.html` |
| Pipeline.TransformToDebugHtmlFile | transformer.py:235-244 | with an output path it is the plain entry point; without one, the `.debug.html` path is computed first, fails first on a path without a name, and otherwise is handed to the plain entry point as the output path |
| Pipeline.StylesheetBesideXml | transformer.py:207-233 | a document without a deciding instruction, lying beside an existing `<stem>.xsl` that transforms it, is written as `<stem>.html` beside itself: the output with the style block and the meta line, in the stylesheet's declared encoding |
| Pipeline.DefaultOutputNames | transformer.py:228-229 | the default output has suffix `.html` and the XML stem; the debug output also ends in `.html`, its stem extended by `.debug`, and the two differ |
| Pipeline.PostProcessingRecoversRaw | transformer.py:203-226 | style block first and meta line second, each can be cut out again to give back the raw transformation output |
| Pipeline.WrittenHtmlIsPostProcessed | transformer.py:220-226 | the written text is the raw output with the style block, then the meta line for the written encoding |
| Pipeline.RootAsXml | transformer.py:241-244 | for the root directory, the path without a name, the plain entry point reports the parser's error and the debug one the `with_suffix` error, raised before the file is read |
| FolderHistory.Kept | main_window.py:458-459 | a push keeps a prefix of the history; in a valid state exactly the entries up to and including the index |
| FolderHistory.Navigate | main_window.py:448-472 | a folder that is not a directory changes nothing; otherwise it is displayed; a push keeps the entries up to the index and appends the folder unless it already is the entry at the index, and the index ends on the last entry; the invariant is kept |
| FolderHistory.Back | main_window.py:474-479 | nothing at index 0 or below; otherwise the index steps back, the history is kept, and the folder is displayed if it still exists; the invariant is kept |
| FolderHistory.Forward | main_window.py:481-488 | nothing without an entry after the index; otherwise the index steps forward, the history is kept, and the folder is displayed if it still exists; the invariant is kept |
| FolderHistory.Up | main_window.py:490-496 | nothing without a displayed folder or at the root; otherwise a push of the parent; the invariant is kept |
| FolderHistory.ButtonsMatchOperations | main_window.py:439-446 | for the buttons as `_update_folder_nav_buttons` computes them from a state: Back and Forward are enabled exactly when pressing them changes the state; Up changes the state exactly when it is enabled and the parent exists |
| FolderHistory.BackThenForward | main_window.py:474-488 | back then forward returns to the same entry, and to the same state when the display matched the index |
| FolderHistory.ForwardThenBack | main_window.py:474-488 | forward then back returns to the same entry likewise |
| FolderHistory.BackOntoMissingFolder | main_window.py:450-452 | stepping back onto a vanished folder moves the index but not the display, so the two disagree |
| FolderHistory.PushSameFolderIsNoOp | main_window.py:461-463 | pushing the last entry again, when it is displayed and nothing follows, changes nothing |
| FolderHistory.PushDropsForwardEntries | main_window.py:456-466 | a push of a new folder after going back discards the forward entries and disables Forward |
| FolderHistory.Step | main_window.py:134-135 | every user command keeps the navigation invariant |
| FolderHistory.ReachableStatesAreValid | main_window.py:134-135 | every state reachable from a new window satisfies the invariant |
| FolderHistory.Press | main_window.py:448-496 | a command moves the state as `Step` does; the shown buttons are refreshed when the command displays a folder and otherwise keep showing the previous state |
| FolderHistory.StaleButtonsAfterMissingBack | main_window.py:474-479 | Back from the last entry onto a vanished folder moves the index, yet the shown Forward button stays disabled though Forward would now act, so the window no longer shows its state |
| FolderHistory.PressRefreshed | main_window.py:439-446 | with the buttons refreshed after every command, the state stays valid and the shown buttons are those of the new state |
| FolderHistory.RefreshedButtonsMatchOperations | main_window.py:439-446 | in every window reached from a new one with refreshed buttons, Back and Forward are shown enabled exactly when pressing them changes the state |
| Preview.HashPrefix | main_window.py:509 | at most the first ten hash characters, exactly ten for a full hash |
| Preview.PreviewHtmlPath | main_window.py:501-510 | the preview file lies in `<temp>/XmlStyledViewer`, has suffix `.html`, and its stem is the XML stem, `__preview__` and the hash prefix |
| Preview.PreviewNameRoundTrip | main_window.py:510 | the XML stem and the ten hash digits can be read back from the preview name |
| Preview.PreviewPathsSeparate | main_window.py:505-510 | two XML files share a preview file exactly when their stems and ten-digit hash prefixes agree |
| Drop.CheckDrop | main_window.py:664-681 | not an existing regular file first, then a suffix other than `.xml` in any case, then a missing `<stem>.xsl` beside it; otherwise accepted |
| Drop.OpenXmlViaDrop | main_window.py:656-689 | a refused drop changes nothing; an accepted one navigates to the file's parent folder with a push and hands the file on to be opened |
| Drop.AcceptedDropResolves | main_window.py:672-673 | the stylesheet an accepted drop checked for is the one resolution falls back to |
| Drop.UpperCaseSuffixAccepted | main_window.py:668 | a name ending in `.XML` is accepted like one ending in `.xml` |

## Left out

- XML parsing, XSLT compilation and application, and serialisation (`etree.parse`, `etree.XSLT`, `str(result_tree)`): foreign calls, given as the `Engine` functions.
- `_get_output_encoding_from_xsl`'s lookup of the `xsl` prefix in the stylesheet's namespace map: part of the given `xslOutput` answer.
- Encoding the text with `errors="replace"` and writing the bytes: codec work and file I/O. The model returns the path, the text and the encoding name (`Pipeline.Written`).
- SHA-1 and `tempfile.gettempdir()`: parameters of `Preview.PreviewHtmlPath`. Creating the temporary folder (`mkdir`) is I/O and left out.
- `Path.resolve()` on symbolic links, relative XML paths, Windows drives and backslash separators: paths are absolute and already resolved. Only `..`, `.` and empty components of an `href` are handled.
- `exists()`, `is_file()` and `is_dir()` ask the `Disk`. A file that changes between the two stylesheet look-ups of `transform_to_html_file` is not modelled: the disk is one value per call.
- `shlex` backslash escapes and escapes inside double quotes: instruction text is split on spaces, tabs and line breaks, with single and double quotes grouping and the unclosed-quote error.
- Text.Lower: folds ASCII letters only. Python's `str.lower()` also folds other letters, and on U+0130 it changes the string length, which would shift the splice positions.
- Text.IsSpace: the regular expression's `\s` and `str.strip()` are both taken as Python's `str.isspace()` set.
- The XML file's own encoding, `QSettings` (`last_dir`), message boxes, the tree view, opening the file in the view (`open_xml`), search, PDF export, menus and `app.py`: user interface and settings.
- Charset.OutputEncoding: uses the corrected `Charset.NormalizeCharset`, so a declared encoding of white space only gives `UTF-8` where the code gives the empty name.
- Pipeline.TransformToHtmlFile: inherits that substitution. For a blank declared encoding the code builds `<meta charset="">` and then fails in `str.encode` with `LookupError`, writing nothing; the model writes `UTF-8`. Likewise any declared encoding name Python has no codec for (say `x-foo`) makes `str.encode` raise `LookupError` (transformer.py:232), while the model returns a `Written` record naming that encoding: the set of known codecs is not modelled.
- FolderHistory.Navigate: states the post-push shape only when the state satisfies `Valid`, because the source never calls it on any other state.

## Findings

| source | as written | input that shows it | evidently intended | confidence | as-written member | corrected member |
|---|---|---|---|---|---|---|
| transformer.py:164-166 | `if not enc` tests emptiness before `enc.strip()`, so a name of white space only is returned as `""` | `_normalize_charset("  ")` gives `""`. Normalising that again gives `"UTF-8"`, so the normaliser is not idempotent. `""` then reaches `str.encode` as a codec name and `<meta charset="">` | a blank name treated like a missing one: `"UTF-8"` | medium, not executed | Charset.AsWrittenIdempotentUnlessBlank | Charset.NormalizeCharsetIdempotent |
| main_window.py:474-479 | `_on_folder_back` lowers the index before `_navigate_to_folder` checks the folder (450-452); the buttons are refreshed only at the end of a successful navigation (472) | history `[A, B]` at index 1 with `A` deleted: Back moves the index to 0 and returns early, so Back stays enabled and Forward disabled although Forward would now act | the buttons always reflect the history position | medium, not executed | FolderHistory.StaleButtonsAfterMissingBack | FolderHistory.RefreshedButtonsMatchOperations |

The rest of the model (`Charset.OutputEncoding` and so `Pipeline.TransformToHtmlFile`) uses the corrected `Charset.NormalizeCharset`; the as-written normaliser is kept beside it for comparison (`Charset.CorrectionOnlyAffectsBlank`). The navigation commands are stated both ways: `FolderHistory.Press` as written and `FolderHistory.PressRefreshed` corrected.

=== FILE: charset.dfy ===
/** Canonical charset names for the written HTML (`_normalize_charset`) and the
    output encoding a stylesheet declares (`_get_output_encoding_from_xsl`). */
module Charset {
  import opened Wrappers
  import opened Text

  const DefaultCharset: string := "UTF-8"
  const ShiftJis: string := "Shift_JIS"

  /** Lower-cased spellings that all mean Shift_JIS. */
  const ShiftJisAliases: seq<string> := ["shift_jis", "shift-jis", "sjis", "ms932", "cp932"]

  predicate IsShiftJisAlias(e: string) {
    Lower(e) in ShiftJisAliases
  }

  /** A declared encoding that is present but consists only of white space. */
  predicate Blank(enc: Option<string>) {
    enc.Some? && enc.value != "" && AllSpace(enc.value)
  }

  /** `_normalize_charset` exactly as written: the emptiness test happens
      before stripping, so white space alone comes out as the empty name. */
  function NormalizeCharsetAsWritten(enc: Option<string>): (r: string)
    ensures enc.None? || enc.value == "" ==> r == DefaultCharset
    ensures Blank(enc) ==> r == ""
  {
    if enc.None? || enc.value == "" then DefaultCharset
    else
      var e := Strip(enc.value);
      if IsShiftJisAlias(e) then ShiftJis else e
  }

  /** `_normalize_charset` with the emptiness test made after stripping: an
      absent, empty or blank name is UTF-8, any Shift_JIS alias (in any case,
      with surrounding white space) is `Shift_JIS`, and every other name is
      passed through trimmed. The result is never empty, never has white space
      at its ends, and is never a non-canonical Shift_JIS spelling. */
  function NormalizeCharset(enc: Option<string>): (r: string)
    ensures r != "" && !IsSpace(r[0]) && !IsSpace(r[|r| - 1])
    ensures enc.None? || AllSpace(enc.value) ==> r == DefaultCharset
    ensures IsShiftJisAlias(r) ==> r == ShiftJis
    ensures enc.Some? && IsShiftJisAlias(Strip(enc.value)) ==> r == ShiftJis
    ensures enc.Some? && !AllSpace(enc.value) && !IsShiftJisAlias(Strip(enc.value)) ==> r == Strip(enc.value)
  {
    if enc.None? then DefaultFacts(); DefaultCharset
    else
      var e := Strip(enc.value);
      if e == "" then DefaultFacts(); EmptyIsNoAlias(); DefaultCharset
      else Canonical(e)
  }

  /** The alias lookup: a Shift_JIS spelling becomes `Shift_JIS`, any other
      name stays. */
  function Canonical(e: string): (r: string)
    requires e != "" && !IsSpace(e[0]) && !IsSpace(e[|e| - 1])
    ensures r != "" && !IsSpace(r[0]) && !IsSpace(r[|r| - 1])
    ensures IsShiftJisAlias(r) ==> r == ShiftJis
    ensures IsShiftJisAlias(e) ==> r == ShiftJis
    ensures !IsShiftJisAlias(e) ==> r == e
  {
    if IsShiftJisAlias(e) then ShiftJisFacts(); ShiftJis else e
  }

  /** `UTF-8` is trimmed and no Shift_JIS alias. */
  lemma DefaultFacts()
    ensures DefaultCharset != "" && !IsSpace(DefaultCharset[0]) && !IsSpace(DefaultCharset[|DefaultCharset| - 1])
    ensures !IsShiftJisAlias(DefaultCharset)
  {
    assert Lower(DefaultCharset)[0] == 'u';
  }

  /** `Shift_JIS` is trimmed and its own alias. */
  lemma ShiftJisFacts()
    ensures ShiftJis != "" && !IsSpace(ShiftJis[0]) && !IsSpace(ShiftJis[|ShiftJis| - 1])
    ensures IsShiftJisAlias(ShiftJis)
  {
    assert Lower(ShiftJis) == ShiftJisAliases[0];
  }

  lemma EmptyIsNoAlias()
    ensures !IsShiftJisAlias("")
  {
    assert forall k :: 0 <= k < |ShiftJisAliases| ==> |ShiftJisAliases[k]| > 0;
  }

  /** A non-empty name without surrounding white space that is not a
      non-canonical Shift_JIS spelling is left as it is. */
  lemma NormalizedIsFixed(r: string)
    requires r != "" && !IsSpace(r[0]) && !IsSpace(r[|r| - 1])
    requires IsShiftJisAlias(r) ==> r == ShiftJis
    ensures NormalizeCharset(Some(r)) == r
  {
    StripTrimmed(r);
    assert NormalizeCharset(Some(r)) == Canonical(r);
  }

  /** Normalising an already normalised name changes nothing. */
  lemma NormalizeCharsetIdempotent(enc: Option<string>)
    ensures NormalizeCharset(Some(NormalizeCharset(enc))) == NormalizeCharset(enc)
  {
    NormalizedIsFixed(NormalizeCharset(enc));
  }

  /** The corrected and the as-written normaliser differ exactly on blank input. */
  lemma CorrectionOnlyAffectsBlank(enc: Option<string>)
    ensures NormalizeCharsetAsWritten(enc) != NormalizeCharset(enc) <==> Blank(enc)
  {
  }

  /** As written, normalising twice agrees with normalising once exactly when
      the input is not blank: `"  "` normalises to `""`, and `""` to `UTF-8`. */
  lemma {:induction false} AsWrittenIdempotentUnlessBlank(enc: Option<string>)
    ensures NormalizeCharsetAsWritten(Some(NormalizeCharsetAsWritten(enc))) == NormalizeCharsetAsWritten(enc)
            <==> !Blank(enc)
  {
    var r := NormalizeCharsetAsWritten(enc);
    if !Blank(enc) {
      CorrectionOnlyAffectsBlank(enc);
      assert r == NormalizeCharset(enc);
      NormalizeCharsetIdempotent(enc);
      StripTrimmed(r);
    }
  }

  /** What parsing the stylesheet found about its `xsl:output` element. */
  datatype StylesheetOutput = NoOutputElement | OutputElement(encoding: Option<string>)

  /** `_get_output_encoding_from_xsl`, given the parse of the stylesheet (or the
      parse error): it never fails; a parse error, a missing `xsl:output` or a
      missing `encoding` attribute all give UTF-8; a declared encoding is
      normalised. The result is itself a normalised name. */
  function OutputEncoding(parsed: Result<StylesheetOutput, string>): (r: string)
    ensures r != ""
    ensures NormalizeCharset(Some(r)) == r
    ensures parsed.Failure? || parsed.value.NoOutputElement? ==> r == DefaultCharset
    ensures parsed.Success? && parsed.value.OutputElement? ==> r == NormalizeCharset(parsed.value.encoding)
  {
    match parsed
    case Failure(_) => DefaultFacts(); NormalizedIsFixed(DefaultCharset); DefaultCharset
    case Success(NoOutputElement) => DefaultFacts(); NormalizedIsFixed(DefaultCharset); DefaultCharset
    case Success(OutputElement(enc)) =>
      NormalizeCharsetIdempotent(enc);
      NormalizeCharset(enc)
  }
}

=== FILE: drop.dfy ===
/** The entry point for a file dropped on the view (`open_xml_via_drop`): the
    checks a dropped path must pass, in order, and what an accepted drop does
    to the folder navigation. Message boxes are represented by the outcome;
    opening the file itself is the caller's next step. */
module Drop {
  import opened Wrappers
  import opened Text
  import opened Paths
  import opened Resolver
  import opened FolderHistory

  const XmlSuffix: string := ".xml"

  /** The result of the checks: the first one that fails, or acceptance. */
  datatype DropOutcome =
    | NoSuchFile
    | NotXml
    | MissingStylesheet(xml: Path, xsl: Path)
    | Accepted(xml: Path)

  /** The checks of `open_xml_via_drop`, in their order: the path must be an
      existing regular file, its suffix must be `.xml` in any case, and the
      file with the same stem and suffix `.xsl` must exist beside it. */
  function CheckDrop(disk: Disk, xml: Path): (r: DropOutcome)
    ensures !IsFile(disk, xml) ==> r == NoSuchFile
    ensures IsFile(disk, xml) && Lower(Suffix(Name(xml))) != XmlSuffix ==> r == NotXml
    ensures r.MissingStylesheet? ==>
              IsFile(disk, xml) && Lower(Suffix(Name(xml))) == XmlSuffix
              && r.xsl == Child(Parent(xml), ExpectedXslName(xml)) && !Exists(disk, r.xsl)
    ensures IsFile(disk, xml) && Lower(Suffix(Name(xml))) == XmlSuffix
            && !Exists(disk, Child(Parent(xml), ExpectedXslName(xml))) ==>
              r == MissingStylesheet(xml, Child(Parent(xml), ExpectedXslName(xml)))
    ensures r.Accepted? <==>
              IsFile(disk, xml) && Lower(Suffix(Name(xml))) == XmlSuffix
              && Exists(disk, Child(Parent(xml), ExpectedXslName(xml)))
    ensures r.Accepted? ==> r.xml == xml
  {
    if !IsFile(disk, xml) then NoSuchFile
    else if Lower(Suffix(Name(xml))) != XmlSuffix then NotXml
    else
      assert Name(xml) != "";
      var xsl := WithSuffix(xml, XslSuffix);
      if !Exists(disk, xsl) then MissingStylesheet(xml, xsl)
      else Accepted(xml)
  }

  /** `open_xml_via_drop`: an accepted file's folder is navigated to with a
      push, and the file is handed on to be opened; a refused drop changes
      nothing. */
  function OpenXmlViaDrop(n: Nav, disk: Disk, xml: Path): (r: (Nav, Option<Path>))
    ensures CheckDrop(disk, xml).Accepted? ==> r.0 == Navigate(n, disk, Parent(xml), true) && r.1 == Some(xml)
    ensures !CheckDrop(disk, xml).Accepted? ==> r == (n, None)
    ensures CheckDrop(disk, xml).Accepted? && IsDir(disk, Parent(xml)) ==> r.0.current == Some(Parent(xml))
    ensures Valid(n) ==> Valid(r.0)
  {
    if CheckDrop(disk, xml).Accepted? then (Navigate(n, disk, Parent(xml), true), Some(xml))
    else (n, None)
  }

  /** An accepted drop whose document names no stylesheet will find one: the
      stylesheet the drop checked for is the one resolution falls back to. */
  lemma AcceptedDropResolves(disk: Disk, xml: Path, href: Option<string>)
    requires CheckDrop(disk, xml).Accepted? && !HrefGiven(href)
    ensures ResolveXslPath(disk, xml, href) == Success(Child(Parent(xml), ExpectedXslName(xml)))
  {
    FallbackNextToXml(disk, xml, href);
  }

  /** The suffix test ignores case: a file whose name ends in `.XML` is
      accepted exactly like one ending in `.xml`. */
  lemma UpperCaseSuffixAccepted(disk: Disk, dir: Path, stem: string)
    requires stem != ""
    ensures var xml := Child(dir, stem + ".XML");
            CheckDrop(disk, xml).Accepted? <==>
              IsFile(disk, xml) && Exists(disk, Child(dir, stem + XslSuffix))
  {
    SuffixOfAppended(stem, ".XML");
    assert Lower(".XML") == XmlSuffix;
  }
}

=== FILE: folder_history.dfy ===
/** The main window's folder navigation: the browser-like history
    (`_folder_history` with `_folder_history_index`), the folder on display
    (`current_folder`), the operations that move between folders
    (`_navigate_to_folder`, `_on_folder_back`, `_on_folder_forward`,
    `_on_folder_up`) and the enabling of their buttons
    (`_update_folder_nav_buttons`). Paths are already resolved. */
module FolderHistory {
  import opened Wrappers
  import opened Paths

  /** The navigation state. An index of -1 means no history yet. */
  datatype Nav = Nav(history: seq<Path>, index: int, current: Option<Path>)

  /** The state of a freshly opened window. */
  const Initial: Nav := Nav([], -1, None)

  /** The invariant every reachable state keeps: the index points into the
      history, and is -1 exactly when the history is empty; a folder is on
      display exactly when the history is non-empty, and it is one of the
      folders in the history. */
  predicate Valid(n: Nav) {
    && -1 <= n.index < |n.history|
    && (n.index == -1 <==> |n.history| == 0)
    && (n.current.None? <==> |n.history| == 0)
    && (n.current.Some? ==> n.current.value in n.history)
  }

  /** The folder on display is the one the index points at. */
  predicate Synced(n: Nav) {
    0 <= n.index < |n.history| && n.current == Some(n.history[n.index])
  }

  /** The entries a push keeps: a prefix of the history, and in a valid state
      exactly the entries up to and including the index, whether or not any
      follow it. */
  function Kept(n: Nav): (h: seq<Path>)
    ensures |h| <= |n.history| && h == n.history[..|h|]
    ensures Valid(n) ==> h == n.history[..n.index + 1]
  {
    if 0 <= n.index < |n.history| - 1 then n.history[..n.index + 1] else n.history
  }

  /** `_navigate_to_folder`: a folder that is not an existing directory changes
      nothing. Otherwise the folder is displayed; with `push`, the entries after
      the index are dropped and the folder is appended unless it already is
      the last entry, and the index moves to the last entry; without `push`,
      the history and the index stay as they are. */
  function Navigate(n: Nav, disk: Disk, folder: Path, push: bool): (r: Nav)
    ensures !IsDir(disk, folder) ==> r == n
    ensures IsDir(disk, folder) ==> r.current == Some(folder)
    ensures IsDir(disk, folder) && !push ==> r.history == n.history && r.index == n.index
    ensures IsDir(disk, folder) && push && Valid(n) ==>
              && |r.history| > 0 && r.index == |r.history| - 1 && r.history[r.index] == folder
              && r.history == (if |n.history| > 0 && n.history[n.index] == folder
                               then n.history[..n.index + 1]
                               else n.history[..n.index + 1] + [folder])
    ensures Valid(n) && (push || !IsDir(disk, folder) || folder in n.history) ==> Valid(r)
  {
    if !IsDir(disk, folder) then n
    else if !push then n.(current := Some(folder))
    else
      var h := Kept(n);
      if |h| > 0 && h[|h| - 1] == folder then Nav(h, n.index, Some(folder))
      else Nav(h + [folder], |h|, Some(folder))
  }

  /** `_on_folder_back`: with nothing before the index nothing happens;
      otherwise the index steps back and the folder there is displayed if it
      still exists. The index moves even when it does not. */
  function Back(n: Nav, disk: Disk): (r: Nav)
    requires n.index <= |n.history|
    ensures n.index <= 0 ==> r == n
    ensures n.index > 0 ==> r.history == n.history && r.index == n.index - 1
    ensures n.index > 0 && IsDir(disk, n.history[n.index - 1]) ==> r.current == Some(n.history[n.index - 1])
    ensures n.index > 0 && !IsDir(disk, n.history[n.index - 1]) ==> r.current == n.current
    ensures Valid(n) ==> Valid(r)
  {
    if n.index <= 0 then n
    else
      var i := n.index - 1;
      Navigate(n.(index := i), disk, n.history[i], false)
  }

  /** `_on_folder_forward`: without an entry after the index nothing happens;
      otherwise the index steps forward and the folder there is displayed if
      it still exists. */
  function Forward(n: Nav, disk: Disk): (r: Nav)
    ensures n.index < 0 || n.index >= |n.history| - 1 ==> r == n
    ensures 0 <= n.index < |n.history| - 1 ==> r.history == n.history && r.index == n.index + 1
    ensures 0 <= n.index < |n.history| - 1 && IsDir(disk, n.history[n.index + 1]) ==>
              r.current == Some(n.history[n.index + 1])
    ensures 0 <= n.index < |n.history| - 1 && !IsDir(disk, n.history[n.index + 1]) ==>
              r.current == n.current
    ensures Valid(n) ==> Valid(r)
  {
    if n.index < 0 || n.index >= |n.history| - 1 then n
    else
      var i := n.index + 1;
      Navigate(n.(index := i), disk, n.history[i], false)
  }

  /** `_on_folder_up`: without a folder on display, or at the root, nothing
      happens; otherwise the parent is navigated to with a push. */
  function Up(n: Nav, disk: Disk): (r: Nav)
    ensures n.current.None? ==> r == n
    ensures n.current.Some? && Parent(n.current.value) == n.current.value ==> r == n
    ensures n.current.Some? && Parent(n.current.value) != n.current.value ==>
              r == Navigate(n, disk, Parent(n.current.value), true)
    ensures Valid(n) ==> Valid(r)
  {
    if n.current.None? then n
    else
      var parent := Parent(n.current.value);
      if parent == n.current.value then n else Navigate(n, disk, parent, true)
  }

  /** Which of the three buttons are enabled. */
  datatype NavButtons = NavButtons(back: bool, forward: bool, up: bool)

  /** `_update_folder_nav_buttons`. */
  function Buttons(n: Nav): NavButtons {
    NavButtons(
      n.index > 0,
      0 <= n.index < |n.history| - 1,
      n.current.Some? && Parent(n.current.value) != n.current.value)
  }

  /** A button is enabled exactly when its operation would act: Back and
      Forward then always move the index; Up acts exactly when it is enabled
      and the parent exists. */
  lemma ButtonsMatchOperations(n: Nav, disk: Disk)
    requires n.index <= |n.history|
    ensures Buttons(n).back <==> Back(n, disk) != n
    ensures Buttons(n).forward <==> Forward(n, disk) != n
    ensures Up(n, disk) != n <==> Buttons(n).up && IsDir(disk, Parent(n.current.value))
  {
  }

  /** Going back and then forward returns to the same entry, and displays it
      when it still exists; from a synchronised state the round trip changes
      nothing. */
  lemma BackThenForward(n: Nav, disk: Disk)
    requires Valid(n) && n.index > 0 && IsDir(disk, n.history[n.index])
    ensures Forward(Back(n, disk), disk) == Nav(n.history, n.index, Some(n.history[n.index]))
    ensures Synced(n) ==> Forward(Back(n, disk), disk) == n
  {
  }

  /** Going forward and then back returns to the same entry likewise. */
  lemma ForwardThenBack(n: Nav, disk: Disk)
    requires Valid(n) && 0 <= n.index < |n.history| - 1 && IsDir(disk, n.history[n.index])
    ensures Back(Forward(n, disk), disk) == Nav(n.history, n.index, Some(n.history[n.index]))
    ensures Synced(n) ==> Back(Forward(n, disk), disk) == n
  {
  }

  /** Stepping back onto a folder that has disappeared moves the index but not
      the display: afterwards the index points at a folder other than the one
      shown. */
  lemma BackOntoMissingFolder(n: Nav, disk: Disk)
    requires Synced(n) && n.index > 0 && !IsDir(disk, n.history[n.index - 1])
    requires n.history[n.index - 1] != n.history[n.index]
    ensures Back(n, disk).index == n.index - 1 && Back(n, disk).current == n.current
    ensures !Synced(Back(n, disk))
  {
  }

  /** Pushing the folder that is already the last entry and on display, with
      nothing after the index, changes nothing. */
  lemma PushSameFolderIsNoOp(n: Nav, disk: Disk, folder: Path)
    requires Valid(n) && |n.history| > 0 && n.index == |n.history| - 1
    requires n.history[n.index] == folder && n.current == Some(folder)
    ensures Navigate(n, disk, folder, true) == n
  {
  }

  /** A push after going back discards the entries after the index, so
      Forward is disabled afterwards. */
  lemma PushDropsForwardEntries(n: Nav, disk: Disk, folder: Path)
    requires Valid(n) && 0 <= n.index < |n.history| - 1
    requires IsDir(disk, folder) && n.history[n.index] != folder
    ensures Navigate(n, disk, folder, true).history == n.history[..n.index + 1] + [folder]
    ensures !Buttons(Navigate(n, disk, folder, true)).forward
  {
  }

  /** What the user can do to the navigation: open a folder (the folder
      dialog, the file dialog and a drop all navigate with a push), or press
      one of the three buttons. */
  datatype Command = OpenFolder(folder: Path) | GoBack | GoForward | GoUp

  function Step(n: Nav, disk: Disk, c: Command): (r: Nav)
    requires Valid(n)
    ensures Valid(r)
  {
    match c
    case OpenFolder(folder) => Navigate(n, disk, folder, true)
    case GoBack => Back(n, disk)
    case GoForward => Forward(n, disk)
    case GoUp => Up(n, disk)
  }

  /** A session: commands, each against the disk as it is at that moment. */
  function Run(n: Nav, steps: seq<(Disk, Command)>): (r: Nav)
    requires Valid(n)
    ensures Valid(r)
    decreases |steps|
  {
    if |steps| == 0 then n
    else Run(Step(n, steps[0].0, steps[0].1), steps[1..])
  }

  /** Every state reachable from a fresh window keeps the invariant. */
  lemma ReachableStatesAreValid(steps: seq<(Disk, Command)>)
    ensures Valid(Run(Initial, steps))
  {
  }

  // ------------------------------------------------------- the shown buttons

  /** The window as the user sees it: the navigation state and the buttons'
      enabled state, which `_update_folder_nav_buttons` sets at start-up and
      at the end of a `_navigate_to_folder` that displays a folder, and
      nowhere else. */
  datatype Window = Window(nav: Nav, shown: NavButtons)

  /** A fresh window: empty history, all three buttons disabled. */
  const InitialWindow: Window := Window(Initial, Buttons(Initial))

  /** The buttons show what `_update_folder_nav_buttons` would compute now. */
  predicate Fresh(w: Window) {
    w.shown == Buttons(w.nav)
  }

  /** Whether a command gets as far as displaying a folder. */
  predicate Displays(n: Nav, disk: Disk, c: Command)
    requires Valid(n)
  {
    match c
    case OpenFolder(folder) => IsDir(disk, folder)
    case GoBack => n.index > 0 && IsDir(disk, n.history[n.index - 1])
    case GoForward => 0 <= n.index < |n.history| - 1 && IsDir(disk, n.history[n.index + 1])
    case GoUp => n.current.Some? && Parent(n.current.value) != n.current.value
                 && IsDir(disk, Parent(n.current.value))
  }

  /** One command as written: the navigation moves as `Step` says; the
      buttons are recomputed when a folder is displayed and otherwise keep
      their old state, as does the display. */
  function Press(w: Window, disk: Disk, c: Command): (r: Window)
    requires Valid(w.nav)
    ensures r.nav == Step(w.nav, disk, c)
    ensures Displays(w.nav, disk, c) ==> Fresh(r)
    ensures !Displays(w.nav, disk, c) ==> r.shown == w.shown && r.nav.current == w.nav.current
  {
    var n := Step(w.nav, disk, c);
    Window(n, if Displays(w.nav, disk, c) then Buttons(n) else w.shown)
  }

  /** Stepping back from the last entry onto a folder that has vanished
      moves the index but leaves the buttons as they were: Forward stays
      disabled although an entry now follows the index, so the folder just
      left cannot be returned to with Forward; back at the first entry, Back
      stays enabled although there is nothing before it. */
  lemma StaleButtonsAfterMissingBack(w: Window, disk: Disk)
    requires Valid(w.nav) && Fresh(w)
    requires 0 < w.nav.index == |w.nav.history| - 1
    requires !IsDir(disk, w.nav.history[w.nav.index - 1])
    ensures var r := Press(w, disk, GoBack);
            && r.nav.index == w.nav.index - 1
            && Buttons(r.nav).forward && !r.shown.forward
            && (r.nav.index == 0 ==> r.shown.back && !Buttons(r.nav).back)
            && !Fresh(r)
  {
  }

  /** One command with the buttons recomputed afterwards in every case,
      which is what the buttons' enabling rule evidently intends. */
  function PressRefreshed(w: Window, disk: Disk, c: Command): (r: Window)
    requires Valid(w.nav)
    ensures r.nav == Step(w.nav, disk, c) && Valid(r.nav)
    ensures Fresh(r)
  {
    var n := Step(w.nav, disk, c);
    Window(n, Buttons(n))
  }

  function RunRefreshed(w: Window, steps: seq<(Disk, Command)>): (r: Window)
    requires Valid(w.nav)
    ensures Valid(r.nav)
    ensures Fresh(w) ==> Fresh(r)
    decreases |steps|
  {
    if |steps| == 0 then w
    else RunRefreshed(PressRefreshed(w, steps[0].0, steps[0].1), steps[1..])
  }

  /** With the buttons recomputed after every command, in every window a
      session can reach Back and Forward are enabled exactly when pressing
      them would move through the history. */
  lemma RefreshedButtonsMatchOperations(steps: seq<(Disk, Command)>, disk: Disk)
    ensures var w := RunRefreshed(InitialWindow, steps);
            && (w.shown.back <==> Back(w.nav, disk) != w.nav)
            && (w.shown.forward <==> Forward(w.nav, disk) != w.nav)
  {
    var w := RunRefreshed(InitialWindow, steps);
    ButtonsMatchOperations(w.nav, disk);
  }
}

=== FILE: markup.dfy ===
/** Post-processing of the transformed HTML by string splicing: the fixed style
    block (`_inject_custom_css`), the meta-charset test (`_has_meta_charset`)
    and the meta-charset line (`_inject_meta_charset`). */
module Markup {
  import opened Wrappers
  import opened Text

  /** The style rules the viewer always adds (the source's `CUSTOM_CSS`). */
  const CustomCss: string :=
    "\n/* 必要最小限の折り返しのみ。視覚デザインはXSLに完全に従う */\npre.oshirase {\n    white-space: pre-wrap !important;\n}\n"

  const StyleBlock: string := "<style>\n" + CustomCss + "\n</style>\n"

  const CloseHead: string := "</head>"
  const OpenHead: string := "<head"

  /** The meta line `_inject_meta_charset` writes. */
  function MetaTag(charset: string): string {
    "<meta charset=\"" + charset + "\">\n"
  }

  /** `s` with the `n` characters at `p` removed. */
  function Excise(s: string, p: nat, n: nat): string
    requires p + n <= |s|
  {
    s[..p] + s[p + n..]
  }

  /** Inserting `text` at `p` and excising it again gives back `s`. */
  lemma SpliceExcise(s: string, p: nat, text: string)
    requires p <= |s|
    ensures var r := s[..p] + text + s[p..];
            p + |text| <= |r| && r[p..p + |text|] == text && Excise(r, p, |text|) == s
  {
    var r := s[..p] + text + s[p..];
    assert r[..p] == s[..p];
    assert r[p..p + |text|] == text;
    assert r[p + |text|..] == s[p..];
  }

  // ---------------------------------------------------------------- style block

  /** Where the style block goes: the first case-insensitive `</head>`, else
      the very start. */
  function CssInsertionPoint(html: string): (p: nat)
    ensures p <= |html|
    ensures Absent(html, CloseHead) ==> p == 0
    ensures forall i :: FirstAt(html, CloseHead, i) ==> p == i
  {
    FindFromStart(html, CloseHead);
    match Find(html, CloseHead, 0)
    case Some(i) => i
    case None => 0
  }

  /** `_inject_custom_css`: the style block immediately before the first
      case-insensitive `</head>`, or in front of everything when there is none;
      every other character is kept in place. */
  function InjectCustomCss(html: string): (r: string)
    ensures |r| == |html| + |StyleBlock|
    ensures Absent(html, CloseHead) ==> r == StyleBlock + html
    ensures forall i :: FirstAt(html, CloseHead, i) ==> r == html[..i] + StyleBlock + html[i..]
  {
    var p := CssInsertionPoint(html);
    html[..p] + StyleBlock + html[p..]
  }

  /** Cutting the style block out where it was inserted gives back the input. */
  lemma InjectCustomCssInverse(html: string)
    ensures var p := CssInsertionPoint(html); var r := InjectCustomCss(html);
            p + |StyleBlock| <= |r| && r[p..p + |StyleBlock|] == StyleBlock
            && Excise(r, p, |StyleBlock|) == html
  {
    SpliceExcise(html, CssInsertionPoint(html), StyleBlock);
  }

  // ---------------------------------------------------------------- meta charset test

  /** Input character `c` matches pattern letter `p` under `re.IGNORECASE`:
      ASCII case folding, plus U+017F (long s), which Python matches with `s`. */
  predicate CharMatchesCI(c: char, p: char) {
    LowerChar(c) == p || (p == 's' && c == '\U{17F}')
  }

  /** The lower-case word `w` occurs at `i` under `re.IGNORECASE`. */
  predicate WordAt(s: string, w: string, i: int) {
    0 <= i && i + |w| <= |s| && forall j :: 0 <= j < |w| ==> CharMatchesCI(s[i + j], w[j])
  }

  /** No `>` in `s[a..b]`. */
  ghost predicate NoCloseIn(s: string, a: int, b: int) {
    0 <= a <= b <= |s| && forall j :: a <= j < b ==> s[j] != '>'
  }

  /** Only white space in `s[a..b]`. */
  ghost predicate SpacesIn(s: string, a: int, b: int) {
    0 <= a <= b <= |s| && forall j :: a <= j < b ==> IsSpace(s[j])
  }

  /** `charset\s*=` matches with `charset` at `k` and `=` at `e`. */
  ghost predicate CharsetAssignAt(s: string, k: int, e: int) {
    WordAt(s, "charset", k) && k + 7 <= e < |s| && SpacesIn(s, k + 7, e) && s[e] == '='
  }

  /** The pattern `<meta\s+[^>]*charset\s*=` matches with `<meta` at `i`,
      `charset` at `k` and `=` at `e`: at least one white-space character right
      after `<meta`, then no `>` up to `charset`. */
  ghost predicate MetaCharsetMatch(s: string, i: int, k: int, e: int) {
    WordAt(s, "<meta", i) && i + 5 < k && NoCloseIn(s, i + 5, k) && IsSpace(s[i + 5])
    && CharsetAssignAt(s, k, e)
  }

  /** The regular expression finds a match somewhere in `s`. */
  ghost predicate HasMetaCharsetSpec(s: string) {
    exists i, k, e :: MetaCharsetMatch(s, i, k, e)
  }

  /** After `from`, a run of white space is followed by `=` at one place only:
      right after the leading white space. */
  lemma SpacesThenEquals(s: string, from: nat)
    requires from <= |s|
    ensures var e := from + LeadingSpaces(s[from..]);
            SpacesIn(s, from, e)
            && forall e' :: from <= e' < |s| && s[e'] == '=' && SpacesIn(s, from, e') ==> e' == e
  {
    var t := s[from..];
    var n := LeadingSpaces(t);
    var e := from + n;
    assert forall j :: from <= j < e ==> s[j] == t[..n][j - from];
    forall e' | from <= e' < |s| && s[e'] == '=' && SpacesIn(s, from, e')
      ensures e' == e
    {
      assert e' < e ==> s[e'] == t[..n][e' - from] && IsSpace(s[e']);
    }
  }

  /** `charset\s*=` at `k`, decided by skipping the white space. */
  function CharsetAssign(s: string, k: nat): (b: bool)
    ensures b <==> exists e :: CharsetAssignAt(s, k, e)
  {
    if !WordAt(s, "charset", k) then false
    else
      SpacesThenEquals(s, k + 7);
      var e := k + 7 + LeadingSpaces(s[k + 7..]);
      assert e < |s| && s[e] == '=' ==> CharsetAssignAt(s, k, e);
      e < |s| && s[e] == '='
  }

  /** `charset` cannot start on a `>`. */
  lemma CharsetNotAtClose(s: string, k: int)
    requires 0 <= k < |s| && s[k] == '>'
    ensures !WordAt(s, "charset", k)
  {
    assert !CharMatchesCI(s[k + 0], "charset"[0]);
  }

  /** From `k` on, before any `>`, some `charset\s*=` starts. */
  function CharsetBeforeClose(s: string, k: nat): (b: bool)
    ensures b <==> exists k', e :: NoCloseIn(s, k, k') && CharsetAssignAt(s, k', e)
    decreases |s| - k
  {
    if k >= |s| then false
    else if s[k] == '>' then
      CharsetNotAtClose(s, k);
      false
    else if CharsetAssign(s, k) then
      assert NoCloseIn(s, k, k);
      true
    else
      var b := CharsetBeforeClose(s, k + 1);
      assert forall k', e :: NoCloseIn(s, k, k') && CharsetAssignAt(s, k', e) ==> NoCloseIn(s, k + 1, k');
      assert forall k', e :: NoCloseIn(s, k + 1, k') && CharsetAssignAt(s, k', e) ==> NoCloseIn(s, k, k');
      b
  }

  /** A match has its `<meta` at `i` exactly when `<meta` and a white-space
      character are there and `charset\s*=` follows before any `>`. */
  lemma MetaCharsetHere(s: string, i: nat)
    requires i + 6 <= |s|
    ensures WordAt(s, "<meta", i) && IsSpace(s[i + 5]) && CharsetBeforeClose(s, i + 6)
            <==> exists k, e :: MetaCharsetMatch(s, i, k, e)
  {
    if WordAt(s, "<meta", i) && IsSpace(s[i + 5]) && CharsetBeforeClose(s, i + 6) {
      var k, e :| NoCloseIn(s, i + 6, k) && CharsetAssignAt(s, k, e);
      assert NoCloseIn(s, i + 5, k);
      assert MetaCharsetMatch(s, i, k, e);
    }
    if exists k, e :: MetaCharsetMatch(s, i, k, e) {
      var k, e :| MetaCharsetMatch(s, i, k, e);
      assert NoCloseIn(s, i + 6, k);
    }
  }

  /** Some match of the pattern has its `<meta` at or after `i`. */
  function MetaCharsetFrom(s: string, i: nat): (b: bool)
    ensures b <==> exists i', k, e :: i <= i' && MetaCharsetMatch(s, i', k, e)
    decreases |s| - i
  {
    if i + 6 > |s| then false
    else
      var here := WordAt(s, "<meta", i) && IsSpace(s[i + 5]) && CharsetBeforeClose(s, i + 6);
      MetaCharsetHere(s, i);
      here || MetaCharsetFrom(s, i + 1)
  }

  /** `_has_meta_charset`: a case-insensitive search for
      `<meta\s+[^>]*charset\s*=` anywhere in the markup. */
  function HasMetaCharset(html: string): (b: bool)
    ensures b <==> HasMetaCharsetSpec(html)
  {
    MetaCharsetFrom(html, 0)
  }

  // ---------------------------------------------------------------- meta charset line

  /** The first `>` at or after `from` is at `e`. */
  ghost predicate FirstCloseFrom(s: string, from: int, e: int) {
    NoCloseIn(s, from, e) && e < |s| && s[e] == '>'
  }

  /** `>` is found at `j` of the lower-cased text exactly where `s` has one. */
  lemma MatchClose(s: string, j: int)
    ensures MatchAt(s, ">", j) <==> 0 <= j < |s| && s[j] == '>'
  {
    if 0 <= j < |s| {
      assert s[j + 0] == s[j] && ">"[0] == '>';
      assert LowerChar(s[j]) == '>' <==> s[j] == '>';
    }
  }

  /** `s.lower().find(">", from)` finds the first `>` from `from` on. */
  lemma FindClose(s: string, from: nat)
    ensures Find(s, ">", from).None? <==> from > |s| || NoCloseIn(s, from, |s|)
    ensures forall e :: Find(s, ">", from) == Some(e) <==> FirstCloseFrom(s, from, e)
  {
    var r := Find(s, ">", from);
    if r.Some? {
      MatchClose(s, r.value);
      assert forall j :: from <= j < r.value ==> !MatchAt(s, ">", j);
      forall j | from <= j < r.value
        ensures s[j] != '>'
      {
        MatchClose(s, j);
      }
      assert FirstCloseFrom(s, from, r.value);
    } else {
      forall j | from <= j < |s|
        ensures s[j] != '>'
      {
        MatchClose(s, j);
      }
    }
  }

  /** An insertion of `text` at index `at`. */
  datatype Splice = Splice(at: nat, text: string)

  /** Where `_inject_meta_charset` puts the meta line: after the first `>`
      following the first case-insensitive `<head` (so `<header` counts too),
      preceded by a line break; at the very start, without the line break,
      when there is no `<head` or no `>` after it. */
  function MetaInsertion(html: string, charset: string): (sp: Splice)
    ensures sp.at <= |html|
    ensures Absent(html, OpenHead) ==> sp == Splice(0, MetaTag(charset))
    ensures forall h :: FirstAt(html, OpenHead, h) && NoCloseIn(html, h, |html|)
                        ==> sp == Splice(0, MetaTag(charset))
    ensures forall h, e :: FirstAt(html, OpenHead, h) && FirstCloseFrom(html, h, e)
                           ==> sp == Splice(e + 1, "\n" + MetaTag(charset))
  {
    FindFromStart(html, OpenHead);
    match Find(html, OpenHead, 0)
    case None => Splice(0, MetaTag(charset))
    case Some(h) =>
      FindClose(html, h);
      match Find(html, ">", h)
      case None => Splice(0, MetaTag(charset))
      case Some(e) => Splice(e + 1, "\n" + MetaTag(charset))
  }

  /** A meta line placed at `q` is itself a match of the meta-charset pattern. */
  lemma MetaTagMatches(s: string, q: nat, charset: string)
    requires q + |MetaTag(charset)| <= |s| && s[q..q + |MetaTag(charset)|] == MetaTag(charset)
    ensures MetaCharsetMatch(s, q, q + 6, q + 13)
  {
    var m := MetaTag(charset);
    var pre := "<meta charset=\"";
    assert m == pre + (charset + "\">\n") && |pre| == 15;
    var t := s[q..q + 15];
    assert t == pre by {
      assert t == s[q..q + |m|][..15];
      assert m[..15] == pre;
    }
    assert t[0] == '<' && t[1] == 'm' && t[2] == 'e' && t[3] == 't' && t[4] == 'a' && t[5] == ' ';
    assert t[6] == 'c' && t[7] == 'h' && t[8] == 'a' && t[9] == 'r';
    assert t[10] == 's' && t[11] == 'e' && t[12] == 't' && t[13] == '=';
    assert WordAt(s, "<meta", q);
    assert WordAt(s, "charset", q + 6);
    assert SpacesIn(s, q + 13, q + 13);
    assert NoCloseIn(s, q + 5, q + 6);
  }

  /** `_inject_meta_charset`: unchanged when a meta charset is already present;
      otherwise the meta line is spliced in where `MetaInsertion` says, with
      every other character kept. Either way the result carries a meta charset. */
  function InjectMetaCharset(html: string, charset: string): (r: string)
    ensures HasMetaCharsetSpec(html) ==> r == html
    ensures HasMetaCharsetSpec(r)
    ensures !HasMetaCharsetSpec(html) ==>
              var sp := MetaInsertion(html, charset); r == html[..sp.at] + sp.text + html[sp.at..]
  {
    if HasMetaCharset(html) then html
    else
      var sp := MetaInsertion(html, charset);
      var r := html[..sp.at] + sp.text + html[sp.at..];
      var q := if sp.at == 0 then 0 else sp.at + 1;
      assert r[q..q + |MetaTag(charset)|] == MetaTag(charset);
      MetaTagMatches(r, q, charset);
      r
  }

  /** Applying `_inject_meta_charset` again, with any charset, changes nothing. */
  lemma InjectMetaCharsetIdempotent(html: string, charset: string, again: string)
    ensures InjectMetaCharset(InjectMetaCharset(html, charset), again) == InjectMetaCharset(html, charset)
  {
  }

  /** Cutting the inserted text out again gives back the input. */
  lemma InjectMetaCharsetInverse(html: string, charset: string)
    requires !HasMetaCharsetSpec(html)
    ensures var sp := MetaInsertion(html, charset); var r := InjectMetaCharset(html, charset);
            sp.at + |sp.text| <= |r| && r[sp.at..sp.at + |sp.text|] == sp.text
            && Excise(r, sp.at, |sp.text|) == html
  {
    var sp := MetaInsertion(html, charset);
    SpliceExcise(html, sp.at, sp.text);
  }
}

=== FILE: paths.dfy ===
/** Paths as the viewer uses them through `pathlib`: absolute, already-resolved
    component lists, the name/stem/suffix rules, `with_suffix`, and the lexical
    part of `(dir / href).resolve()`. Also the abstract file system that stands
    for `exists()`, `is_file()` and `is_dir()`. */
module Paths {
  import opened Wrappers

  /** An absolute, resolved path, as its components from the root down.
      The root is `Path([])`. */
  datatype Path = Path(parts: seq<string>)

  /** `p.parent`; the root is its own parent. */
  function Parent(p: Path): Path {
    if |p.parts| == 0 then p else Path(p.parts[..|p.parts| - 1])
  }

  /** `p.name`: the last component, empty for the root. */
  function Name(p: Path): string {
    if |p.parts| == 0 then "" else p.parts[|p.parts| - 1]
  }

  /** `dir / name` for a single component `name`. */
  function Child(dir: Path, name: string): (r: Path)
    ensures Parent(r) == dir && Name(r) == name
  {
    Path(dir.parts + [name])
  }

  /** The index of the last `c` in `s` (`str.rfind`). */
  function RFind(s: string, c: char): (r: Option<nat>)
    ensures r.Some? ==> r.value < |s| && s[r.value] == c
    ensures r.Some? ==> forall j :: r.value < j < |s| ==> s[j] != c
    ensures r.None? ==> c !in s
  {
    if |s| == 0 then None
    else if s[|s| - 1] == c then Some(|s| - 1)
    else RFind(s[..|s| - 1], c)
  }

  /** Where the suffix of a file name begins: at its last dot, provided that
      dot is neither the first nor the last character (pathlib's rule). */
  function SuffixStart(name: string): Option<nat> {
    match RFind(name, '.')
    case Some(i) => if 0 < i < |name| - 1 then Some(i) else None
    case None => None
  }

  /** A suffix of the form pathlib accepts and reports back: a dot followed by
      at least one character and no further dot. */
  predicate SimpleSuffix(s: string) {
    |s| >= 2 && s[0] == '.' && '.' !in s[1..]
  }

  /** `PurePath(name).suffix`: empty, or a simple suffix. */
  function Suffix(name: string): (r: string)
    ensures r == "" || SimpleSuffix(r)
  {
    match SuffixStart(name)
    case Some(i) => name[i..]
    case None => ""
  }

  /** `PurePath(name).stem`: the name without its suffix. A non-empty name has
      a non-empty stem. */
  function Stem(name: string): (r: string)
    ensures r + Suffix(name) == name
    ensures name != "" ==> r != ""
  {
    match SuffixStart(name)
    case Some(i) => name[..i]
    case None => name
  }

  /** The suffix of the HTML files the viewer writes. */
  const HtmlSuffix: string := ".html"

  /** `p.with_suffix(suffix)`; pathlib raises `ValueError` for an empty name,
      which callers check first. */
  function WithSuffix(p: Path, suffix: string): (r: Path)
    requires Name(p) != ""
    ensures Parent(r) == Parent(p)
    ensures Name(r) == Stem(Name(p)) + suffix
  {
    Child(Parent(p), Stem(Name(p)) + suffix)
  }

  /** A simple suffix appended to a non-empty base is read back as the suffix,
      with the base as the stem. */
  lemma {:induction false} SuffixOfAppended(base: string, suffix: string)
    requires base != "" && SimpleSuffix(suffix)
    ensures Suffix(base + suffix) == suffix && Stem(base + suffix) == base
  {
    var n := base + suffix;
    assert n[|base|] == '.';
    assert forall j :: |base| < j < |n| ==> n[j] == suffix[j - |base|] && suffix[j - |base|] in suffix[1..];
    assert RFind(n, '.') == Some(|base|);
    assert n[..|base|] == base && n[|base|..] == suffix;
  }

  /** Replacing the suffix and reading it back gives the new suffix, and the
      stem is kept. */
  lemma WithSuffixRoundTrip(p: Path, suffix: string)
    requires Name(p) != "" && SimpleSuffix(suffix)
    ensures Suffix(Name(WithSuffix(p, suffix))) == suffix
    ensures Stem(Name(WithSuffix(p, suffix))) == Stem(Name(p))
  {
    SuffixOfAppended(Stem(Name(p)), suffix);
  }

  /** `str.split(sep)`: the pieces of `s` between separators. */
  function SplitOn(s: string, sep: char): (r: seq<string>)
    ensures |r| >= 1
    ensures forall k :: 0 <= k < |r| ==> sep !in r[k]
    decreases |s|
  {
    if |s| == 0 then [""]
    else
      var rest := SplitOn(s[1..], sep);
      if s[0] == sep then [""] + rest
      else [[s[0]] + rest[0]] + rest[1..]
  }

  /** The components `PurePath(s)` keeps: pieces between `/`, without empty and
      `.` pieces. */
  function Components(s: string): (r: seq<string>)
    ensures forall k :: 0 <= k < |r| ==> r[k] != "" && r[k] != "." && '/' !in r[k]
  {
    Keep(SplitOn(s, '/'))
  }

  function Keep(pieces: seq<string>): (r: seq<string>)
    requires forall k :: 0 <= k < |pieces| ==> '/' !in pieces[k]
    ensures forall k :: 0 <= k < |r| ==> r[k] != "" && r[k] != "." && '/' !in r[k]
  {
    if |pieces| == 0 then []
    else if pieces[0] == "" || pieces[0] == "." then Keep(pieces[1..])
    else [pieces[0]] + Keep(pieces[1..])
  }

  /** Text without a separator is one piece. */
  lemma {:induction false} SplitOnPlain(s: string, sep: char)
    requires sep !in s
    ensures SplitOn(s, sep) == [s]
    decreases |s|
  {
    if |s| > 0 {
      SplitOnPlain(s[1..], sep);
      assert [s[0]] + s[1..] == s;
    }
  }

  /** A separator after a piece without one splits off exactly that piece. */
  lemma {:induction false} SplitOnSep(a: string, sep: char, b: string)
    requires sep !in a
    ensures SplitOn(a + [sep] + b, sep) == [a] + SplitOn(b, sep)
    decreases |a|
  {
    var s := a + [sep] + b;
    if |a| == 0 {
      assert s[1..] == b;
    } else {
      assert s[1..] == a[1..] + [sep] + b;
      SplitOnSep(a[1..], sep, b);
      assert [a[0]] + a[1..] == a;
    }
  }

  /** `PurePath(s).name`: the last component, empty when there is none. */
  function PureName(s: string): string {
    var cs := Components(s);
    if |cs| == 0 then "" else cs[|cs| - 1]
  }

  predicate IsAbsolute(s: string) {
    |s| > 0 && s[0] == '/'
  }

  /** Walks `comps` from `base`: `..` climbs one level (the root stays the
      root), any other component descends. */
  function Climb(base: seq<string>, comps: seq<string>): seq<string>
    decreases |comps|
  {
    if |comps| == 0 then base
    else
      var next := if comps[0] == ".." then (if |base| == 0 then [] else base[..|base| - 1])
                  else base + [comps[0]];
      Climb(next, comps[1..])
  }

  /** `(dir / href).resolve()` without symbolic links: an absolute `href`
      replaces `dir`. */
  function JoinResolve(dir: Path, href: string): Path {
    var base := if IsAbsolute(href) then [] else dir.parts;
    Path(Climb(base, Components(href)))
  }

  lemma {:induction false} ClimbEndsWithLast(base: seq<string>, comps: seq<string>)
    requires |comps| > 0 && comps[|comps| - 1] != ".."
    ensures var r := Climb(base, comps); |r| > 0 && r[|r| - 1] == comps[|comps| - 1]
    decreases |comps|
  {
    if |comps| > 1 {
      var next := if comps[0] == ".." then (if |base| == 0 then [] else base[..|base| - 1])
                  else base + [comps[0]];
      ClimbEndsWithLast(next, comps[1..]);
    }
  }

  /** Resolving an href against a directory lands on a file whose name is the
      href's own name, unless that name is empty or `..`. */
  lemma JoinResolveName(dir: Path, href: string)
    requires PureName(href) != "" && PureName(href) != ".."
    ensures Name(JoinResolve(dir, href)) == PureName(href)
  {
    var base := if IsAbsolute(href) then [] else dir.parts;
    ClimbEndsWithLast(base, Components(href));
  }

  /** The file system as the viewer queries it. */
  datatype Disk = Disk(files: set<Path>, dirs: set<Path>)

  /** `p.exists()`. */
  predicate Exists(d: Disk, p: Path) {
    p in d.files || p in d.dirs
  }

  /** `p.exists() and p.is_file()`. */
  predicate IsFile(d: Disk, p: Path) {
    p in d.files
  }

  /** `p.exists() and p.is_dir()`. */
  predicate IsDir(d: Disk, p: Path) {
    p in d.dirs
  }
}

=== FILE: pipeline.dfy ===
/** The public transformation entry points (`transform_to_html_string`,
    `transform_to_html_file`, `transform_to_debug_html_file`) and the helpers
    they call in order: choosing the XML path, loading it, choosing the
    stylesheet, transforming, adding the style block, then the meta charset,
    then choosing the output path. The XML/XSLT library is an `Engine` of
    given functions; writing the file is represented by the `Written` record. */
module Pipeline {
  import opened Wrappers
  import opened Paths
  import opened StylesheetPi
  import opened Resolver
  import opened Charset
  import opened Markup

  /** What the XML/XSLT library answers. `parseXml` gives the nodes in front of
      the root element, nearest first; `transform` parses and compiles the
      stylesheet and applies it to the document, giving the serialised result;
      `xslOutput` is what parsing the stylesheet finds about `xsl:output`. */
  datatype Engine = Engine(
    parseXml: Path -> Result<seq<Node>, string>,
    transform: (Path, Path) -> Result<string, string>,
    xslOutput: Path -> Result<StylesheetOutput, string>)

  /** The exceptions the entry points raise, in the order they can arise. */
  datatype Failure =
    | MissingXmlPath                          // TypeError: no path given
    | XmlNotFound(xml: Path)                  // FileNotFoundError from `_load_xml_tree`
    | XmlUnreadable(xml: Path, msg: string)   // the XML parser's error
    | InstructionUnreadable(msg: string)      // `shlex` on the instruction text
    | Resolution(error: ResolveError)         // `_resolve_xsl_path`
    | TransformFailed(msg: string)            // stylesheet parse, compile or apply
    | NoFileName(path: Path)                  // `with_suffix` on a path without a name

  const DebugHtmlSuffix: string := ".debug.html"

  /** What `transform_to_html_file` writes: the file, the text, and the
      encoding the text is written in. */
  datatype Written = Written(path: Path, html: string, encoding: string)

  /** `_require_xml_path`: the argument wins over the path stored in the
      transformer; with neither, the call fails. */
  function RequireXmlPath(arg: Option<Path>, stored: Option<Path>): (r: Result<Path, Failure>)
    ensures arg.Some? ==> r == Success(arg.value)
    ensures arg.None? && stored.Some? ==> r == Success(stored.value)
    ensures r.Failure? <==> arg.None? && stored.None?
    ensures r.Failure? ==> r.error == MissingXmlPath
  {
    if arg.Some? then Success(arg.value)
    else if stored.Some? then Success(stored.value)
    else Failure(MissingXmlPath)
  }

  /** `_load_xml_tree`: a missing file fails before the parser is asked. */
  function LoadXml(eng: Engine, disk: Disk, xml: Path): (r: Result<seq<Node>, Failure>)
    ensures !Exists(disk, xml) ==> r == Failure(XmlNotFound(xml))
    ensures Exists(disk, xml) && eng.parseXml(xml).Success? ==> r == Success(eng.parseXml(xml).value)
    ensures Exists(disk, xml) && eng.parseXml(xml).Failure? ==>
              r == Failure(XmlUnreadable(xml, eng.parseXml(xml).error))
  {
    if !Exists(disk, xml) then Failure(XmlNotFound(xml))
    else match eng.parseXml(xml)
      case Failure(msg) => Failure(XmlUnreadable(xml, msg))
      case Success(prev) => Success(prev)
  }

  /** Loading the document and `_resolve_xsl_path` on it: a stylesheet that is
      returned exists, carries the expected name, and belongs to an existing
      XML file. For a readable document the outcome is the resolver's for the
      `href` the scan of its instructions finds, its error wrapped; an
      unreadable instruction fails with the tokenizer's message. */
  function LocateStylesheet(eng: Engine, disk: Disk, xml: Path): (r: Result<Path, Failure>)
    ensures r.Success? ==> Exists(disk, xml) && Exists(disk, r.value)
    ensures r.Success? ==> Name(r.value) == ExpectedXslName(xml)
    ensures !Exists(disk, xml) ==> r == Failure(XmlNotFound(xml))
    ensures Exists(disk, xml) && eng.parseXml(xml).Failure? ==>
              r == Failure(XmlUnreadable(xml, eng.parseXml(xml).error))
    ensures Exists(disk, xml) && eng.parseXml(xml).Success? && ScanHref(eng.parseXml(xml).value).Failure? ==>
              r == Failure(InstructionUnreadable(ScanHref(eng.parseXml(xml).value).error))
    ensures Exists(disk, xml) && eng.parseXml(xml).Success? && ScanHref(eng.parseXml(xml).value).Success? ==>
              var res := ResolveXslPath(disk, xml, ScanHref(eng.parseXml(xml).value).value);
              && (res.Success? ==> r == Success(res.value))
              && (res.Failure? ==> r == Failure(Resolution(res.error)))
  {
    var prev :- LoadXml(eng, disk, xml);
    match ScanHref(prev)
    case Failure(msg) => Failure(InstructionUnreadable(msg))
    case Success(href) =>
      match ResolveXslPath(disk, xml, href)
      case Failure(e) => Failure(Resolution(e))
      case Success(xsl) => Success(xsl)
  }

  /** `transform_to_html_string`: the transformation's output with the style
      block added, and nothing else changed. */
  function TransformToHtmlString(eng: Engine, disk: Disk, arg: Option<Path>, stored: Option<Path>): (r: Result<string, Failure>)
    ensures arg.None? && stored.None? ==> r == Failure(MissingXmlPath)
    ensures RequireXmlPath(arg, stored).Success? && !Exists(disk, RequireXmlPath(arg, stored).value) ==>
              r == Failure(XmlNotFound(RequireXmlPath(arg, stored).value))
    ensures r.Success? ==>
              var xml := RequireXmlPath(arg, stored).value;
              LocateStylesheet(eng, disk, xml).Success?
              && eng.transform(xml, LocateStylesheet(eng, disk, xml).value).Success?
              && r.value == InjectCustomCss(eng.transform(xml, LocateStylesheet(eng, disk, xml).value).value)
    ensures RequireXmlPath(arg, stored).Success? ==>
              var xml := RequireXmlPath(arg, stored).value;
              var loc := LocateStylesheet(eng, disk, xml);
              && (loc.Failure? ==> r == Failure(loc.error))
              && (loc.Success? && eng.transform(xml, loc.value).Failure? ==>
                    r == Failure(TransformFailed(eng.transform(xml, loc.value).error)))
              && (loc.Success? && eng.transform(xml, loc.value).Success? ==> r.Success?)
  {
    var xml :- RequireXmlPath(arg, stored);
    var xsl :- LocateStylesheet(eng, disk, xml);
    match eng.transform(xml, xsl)
    case Failure(msg) => Failure(TransformFailed(msg))
    case Success(raw) => Success(InjectCustomCss(raw))
  }

  /** The path `with_suffix` gives, or the error it raises for a path without
      a name. */
  function WithSuffixChecked(p: Path, suffix: string): (r: Result<Path, Failure>)
    ensures Name(p) == "" <==> r.Failure?
    ensures r.Failure? ==> r.error == NoFileName(p)
    ensures r.Success? ==> Parent(r.value) == Parent(p) && Name(r.value) == Stem(Name(p)) + suffix
  {
    if Name(p) == "" then Failure(NoFileName(p)) else Success(WithSuffix(p, suffix))
  }

  /** The output path: the one given, else the XML path with suffix `.html`. */
  function OutputPath(xml: Path, output: Option<Path>): (r: Result<Path, Failure>)
    ensures output.Some? ==> r == Success(output.value)
    ensures output.None? ==> r == WithSuffixChecked(xml, HtmlSuffix)
  {
    if output.Some? then Success(output.value) else WithSuffixChecked(xml, HtmlSuffix)
  }

  /** `transform_to_html_file`: the HTML string (style block first), then the
      stylesheet chosen again, its declared output encoding, the meta charset
      for that encoding, then the output path. */
  function TransformToHtmlFile(eng: Engine, disk: Disk, xml: Path, output: Option<Path>): (r: Result<Written, Failure>)
    ensures r.Success? ==> HasMetaCharsetSpec(r.value.html)
    ensures r.Success? ==> r.value.encoding != "" && NormalizeCharset(Some(r.value.encoding)) == r.value.encoding
    ensures r.Success? ==>
              TransformToHtmlString(eng, disk, Some(xml), None).Success?
              && r.value.html == InjectMetaCharset(TransformToHtmlString(eng, disk, Some(xml), None).value, r.value.encoding)
    ensures r.Success? ==>
              LocateStylesheet(eng, disk, xml).Success?
              && r.value.encoding == OutputEncoding(eng.xslOutput(LocateStylesheet(eng, disk, xml).value))
    ensures r.Success? && output.Some? ==> r.value.path == output.value
    ensures r.Success? && output.None? ==> Parent(r.value.path) == Parent(xml)
    ensures r.Success? && output.None? ==> Name(r.value.path) == Stem(Name(xml)) + HtmlSuffix
    ensures !Exists(disk, xml) ==> r == Failure(XmlNotFound(xml))
    ensures TransformToHtmlString(eng, disk, Some(xml), None).Failure? ==>
              r == Failure(TransformToHtmlString(eng, disk, Some(xml), None).error)
    ensures TransformToHtmlString(eng, disk, Some(xml), None).Success? && OutputPath(xml, output).Failure? ==>
              r == Failure(OutputPath(xml, output).error)
    ensures TransformToHtmlString(eng, disk, Some(xml), None).Success? && OutputPath(xml, output).Success? ==>
              r.Success?
  {
    var html :- TransformToHtmlString(eng, disk, Some(xml), None);
    match LocateStylesheet(eng, disk, xml)
    case Failure(e) => Failure(e)
    case Success(xsl) =>
      var enc := OutputEncoding(eng.xslOutput(xsl));
      var full := InjectMetaCharset(html, enc);
      var out :- OutputPath(xml, output);
      Success(Written(out, full, enc))
  }

  /** `transform_to_debug_html_file`: the default path, the XML path with
      suffix `.debug.html`, is computed before anything else happens. */
  function TransformToDebugHtmlFile(eng: Engine, disk: Disk, xml: Path, output: Option<Path>): (r: Result<Written, Failure>)
    ensures output.Some? ==> r == TransformToHtmlFile(eng, disk, xml, output)
    ensures output.None? && Name(xml) == "" ==> r == Failure(NoFileName(xml))
    ensures output.None? && Name(xml) != "" ==>
              r == TransformToHtmlFile(eng, disk, xml, Some(WithSuffix(xml, DebugHtmlSuffix)))
    ensures output.None? && r.Success? ==>
              Parent(r.value.path) == Parent(xml) && Name(r.value.path) == Stem(Name(xml)) + DebugHtmlSuffix
  {
    var out :- if output.Some? then Success(output.value) else WithSuffixChecked(xml, DebugHtmlSuffix);
    TransformToHtmlFile(eng, disk, xml, Some(out))
  }

  /** The default output file of `transform_to_html_file` has suffix `.html`
      and the XML file's stem; the debug variant's also ends in `.html`, with
      the stem extended by `.debug`, so the two never coincide. */
  lemma DefaultOutputNames(xml: Path)
    requires Name(xml) != ""
    ensures Suffix(Name(WithSuffix(xml, HtmlSuffix))) == HtmlSuffix
    ensures Stem(Name(WithSuffix(xml, HtmlSuffix))) == Stem(Name(xml))
    ensures Suffix(Name(WithSuffix(xml, DebugHtmlSuffix))) == HtmlSuffix
    ensures Stem(Name(WithSuffix(xml, DebugHtmlSuffix))) == Stem(Name(xml)) + ".debug"
    ensures WithSuffix(xml, HtmlSuffix) != WithSuffix(xml, DebugHtmlSuffix)
  {
    var stem := Stem(Name(xml));
    SuffixOfAppended(stem, HtmlSuffix);
    assert stem + DebugHtmlSuffix == (stem + ".debug") + HtmlSuffix;
    SuffixOfAppended(stem + ".debug", HtmlSuffix);
    assert |Name(WithSuffix(xml, HtmlSuffix))| != |Name(WithSuffix(xml, DebugHtmlSuffix))|;
  }

  /** The post-processing of a raw output: the style block, then the meta
      line. Each insertion can be cut out again: removing the meta line (when
      one was added) gives the styled text, and removing the style block from
      that gives the raw output. */
  lemma PostProcessingRecoversRaw(raw: string, charset: string)
    ensures var styled := InjectCustomCss(raw);
            var html := InjectMetaCharset(styled, charset);
            var sp := MetaInsertion(styled, charset);
            Excise(styled, CssInsertionPoint(raw), |StyleBlock|) == raw
            && (HasMetaCharsetSpec(styled) ==> html == styled)
            && (!HasMetaCharsetSpec(styled) ==>
                  sp.at + |sp.text| <= |html| && Excise(html, sp.at, |sp.text|) == styled)
  {
    InjectCustomCssInverse(raw);
    if !HasMetaCharsetSpec(InjectCustomCss(raw)) {
      InjectMetaCharsetInverse(InjectCustomCss(raw), charset);
    }
  }

  /** The written text is the transformation's raw output post-processed:
      the style block first, the meta line for the written encoding second. */
  lemma WrittenHtmlIsPostProcessed(eng: Engine, disk: Disk, xml: Path, output: Option<Path>)
    requires TransformToHtmlFile(eng, disk, xml, output).Success?
    ensures var w := TransformToHtmlFile(eng, disk, xml, output).value;
            var xsl := LocateStylesheet(eng, disk, xml).value;
            eng.transform(xml, xsl).Success?
            && w.html == InjectMetaCharset(InjectCustomCss(eng.transform(xml, xsl).value), w.encoding)
  {
  }

  /** A document whose nearest deciding `xml-stylesheet` instruction names a
      file other than `<stem>.xsl` is refused with the policy error, on
      every disk, even one on which the named file exists. */
  lemma ForeignStylesheetRejected(eng: Engine, disk: Disk, xml: Path, output: Option<Path>, k: int, href: string)
    requires Exists(disk, xml) && eng.parseXml(xml).Success?
    requires NearestDecider(eng.parseXml(xml).value, k)
    requires ReadHref(eng.parseXml(xml).value[k].text) == Success(Some(href))
    requires href != "" && PureName(href) != ExpectedXslName(xml)
    ensures var policy := Resolution(PolicyViolation(Name(xml), ExpectedXslName(xml), href));
            TransformToHtmlString(eng, disk, Some(xml), None) == Failure(policy)
            && TransformToHtmlFile(eng, disk, xml, output) == Failure(policy)
  {
    ScanHrefNearestWins(eng.parseXml(xml).value);
    MismatchFailsOnEveryDisk(disk, xml, href);
  }

  /** A document without a deciding `xml-stylesheet` instruction, lying beside
      `<stem>.xsl`, is transformed with that stylesheet and written beside
      itself as `<stem>.html`, in the stylesheet's declared encoding. */
  lemma StylesheetBesideXml(eng: Engine, disk: Disk, xml: Path)
    requires Exists(disk, xml) && Name(xml) != "" && eng.parseXml(xml).Success?
    requires forall j :: 0 <= j < |eng.parseXml(xml).value| ==> !Decides(eng.parseXml(xml).value[j])
    requires Exists(disk, Child(Parent(xml), ExpectedXslName(xml)))
    requires eng.transform(xml, Child(Parent(xml), ExpectedXslName(xml))).Success?
    ensures var xsl := Child(Parent(xml), ExpectedXslName(xml));
            var enc := OutputEncoding(eng.xslOutput(xsl));
            var raw := eng.transform(xml, xsl).value;
            TransformToHtmlFile(eng, disk, xml, None)
              == Success(Written(WithSuffix(xml, HtmlSuffix), InjectMetaCharset(InjectCustomCss(raw), enc), enc))
  {
    ScanHrefNearestWins(eng.parseXml(xml).value);
    FallbackNextToXml(disk, xml, None);
  }

  /** The two file entry points report different first errors for the root
      directory, which has no name and exists but is no XML document: the plain one fails in the parser, the debug one fails on
      `with_suffix` before reading anything. */
  lemma RootAsXml(eng: Engine, disk: Disk)
    requires Exists(disk, Path([])) && eng.parseXml(Path([])).Failure?
    ensures var root := Path([]);
            && TransformToHtmlFile(eng, disk, root, None) == Failure(XmlUnreadable(root, eng.parseXml(root).error))
            && TransformToDebugHtmlFile(eng, disk, root, None) == Failure(NoFileName(root))
  {
  }
}

=== FILE: preview.dfy ===
/** The name of the temporary HTML file the viewer displays
    (`_get_preview_html_path`): in the application's folder under the temporary
    directory, the XML file's stem, a marker, the first ten hex digits of the
    SHA-1 of the full XML path, and `.html`. The temporary directory and the
    hash are parameters. */
module Preview {
  import opened Paths

  const AppName: string := "XmlStyledViewer"
  const PreviewMarker: string := "__preview__"
  const HashDigits: nat := 10

  /** `h[:10]`: at most the first ten characters. */
  function HashPrefix(h: string): (r: string)
    ensures |h| >= HashDigits ==> |r| == HashDigits
    ensures |r| <= |h| && r == h[..|r|]
  {
    if |h| <= HashDigits then h else h[..HashDigits]
  }

  /** The preview file's name for an XML file whose path hashes to `h`. */
  function PreviewFileName(xml: Path, h: string): string {
    Stem(Name(xml)) + PreviewMarker + HashPrefix(h) + HtmlSuffix
  }

  /** `_get_preview_html_path`, with `sha1Hex` standing for the hex SHA-1 of
      the path's text: a file in `<temp>/XmlStyledViewer` whose suffix is
      `.html` and whose stem is the XML stem, the marker and the hash prefix. */
  function PreviewHtmlPath(tempDir: Path, xml: Path, sha1Hex: Path -> string): (r: Path)
    ensures Parent(r) == Child(tempDir, AppName)
    ensures Suffix(Name(r)) == HtmlSuffix
    ensures Stem(Name(r)) == Stem(Name(xml)) + PreviewMarker + HashPrefix(sha1Hex(xml))
  {
    var base := Stem(Name(xml)) + PreviewMarker + HashPrefix(sha1Hex(xml));
    SuffixOfAppended(base, HtmlSuffix);
    Child(Child(tempDir, AppName), PreviewFileName(xml, sha1Hex(xml)))
  }

  /** The parts a preview name was built from, read back from its end: the
      stem and the ten hash digits. */
  function PreviewParts(name: string): (parts: (string, string))
    requires |name| >= |PreviewMarker| + HashDigits + |HtmlSuffix|
  {
    var hashEnd := |name| - |HtmlSuffix|;
    var hashStart := hashEnd - HashDigits;
    (name[..hashStart - |PreviewMarker|], name[hashStart..hashEnd])
  }

  /** With a full-length hash, the stem and the hash prefix can be read back
      from the preview name. */
  lemma PreviewNameRoundTrip(xml: Path, h: string)
    requires |h| >= HashDigits
    ensures var name := PreviewFileName(xml, h);
            |name| >= |PreviewMarker| + HashDigits + |HtmlSuffix|
            && PreviewParts(name) == (Stem(Name(xml)), h[..HashDigits])
  {
    var stem := Stem(Name(xml));
    var hp := HashPrefix(h);
    var name := stem + PreviewMarker + hp + HtmlSuffix;
    assert name[..|stem|] == stem;
    assert name[|stem| + |PreviewMarker|..|stem| + |PreviewMarker| + HashDigits] == hp;
  }

  /** Two XML files whose hashes differ in the first ten digits get different
      preview files, even when their names are equal; and equal preview files
      mean equal stems and equal hash prefixes. */
  lemma PreviewPathsSeparate(tempDir: Path, x1: Path, x2: Path, sha1Hex: Path -> string)
    requires |sha1Hex(x1)| >= HashDigits && |sha1Hex(x2)| >= HashDigits
    ensures PreviewHtmlPath(tempDir, x1, sha1Hex) == PreviewHtmlPath(tempDir, x2, sha1Hex) <==>
              Stem(Name(x1)) == Stem(Name(x2)) && sha1Hex(x1)[..HashDigits] == sha1Hex(x2)[..HashDigits]
  {
    PreviewNameRoundTrip(x1, sha1Hex(x1));
    PreviewNameRoundTrip(x2, sha1Hex(x2));
  }
}

=== FILE: resolver.dfy ===
/** The naming rule for stylesheets and the choice of the stylesheet file
    (`_get_expected_xsl_name`, `_resolve_xsl_path`): a stylesheet must be named
    after the XML file's stem with the suffix `.xsl`; an `href` naming any
    other file is a policy violation whatever is on disk, and a chosen file
    that does not exist is an error. */
module Resolver {
  import opened Wrappers
  import opened Paths

  const XslSuffix: string := ".xsl"

  /** Why no stylesheet could be chosen. */
  datatype ResolveError =
    | PolicyViolation(xmlName: string, expected: string, href: string)
    | StylesheetNotFound(xml: Path, searched: Path)

  /** `<stem>.xsl` for the XML file: for a file with a name, a name whose suffix
      is `.xsl` and whose stem is the XML file's stem, and the very name
      `with_suffix(".xsl")` gives. */
  function ExpectedXslName(xml: Path): (r: string)
    ensures |r| >= |XslSuffix| && r[|r| - |XslSuffix|..] == XslSuffix
    ensures Name(xml) != "" ==> Suffix(r) == XslSuffix && Stem(r) == Stem(Name(xml))
    ensures Name(xml) != "" ==> WithSuffix(xml, XslSuffix) == Child(Parent(xml), r)
  {
    var r := Stem(Name(xml)) + XslSuffix;
    assert Name(xml) != "" ==> Suffix(r) == XslSuffix && Stem(r) == Stem(Name(xml)) by {
      if Name(xml) != "" {
        WithSuffixRoundTrip(xml, XslSuffix);
      }
    }
    r
  }

  /** An expected name is a usable last component: never empty and never `..`. */
  lemma ExpectedIsPlainName(xml: Path)
    ensures ExpectedXslName(xml) != "" && ExpectedXslName(xml) != ".."
  {
    var r := ExpectedXslName(xml);
    assert r[|r| - 1] == 'l';
  }

  /** Whether the `href` read from the document counts: Python treats both a
      missing and an empty `href` as absent. */
  predicate HrefGiven(href: Option<string>) {
    href.Some? && href.value != ""
  }

  /** The file the rules select before any look at the disk: the `href`
      resolved against the XML file's folder when its last component is the
      expected name, the expected name in that folder when no `href` is
      given, and a policy violation otherwise. */
  function Candidate(xml: Path, href: Option<string>): (r: Result<Path, ResolveError>)
    ensures HrefGiven(href) && PureName(href.value) != ExpectedXslName(xml) ==>
              r == Failure(PolicyViolation(Name(xml), ExpectedXslName(xml), href.value))
    ensures HrefGiven(href) && PureName(href.value) == ExpectedXslName(xml) ==>
              r == Success(JoinResolve(Parent(xml), href.value))
    ensures !HrefGiven(href) ==> r == Success(Child(Parent(xml), ExpectedXslName(xml)))
    ensures r.Success? ==> Name(r.value) == ExpectedXslName(xml)
  {
    var expected := ExpectedXslName(xml);
    if HrefGiven(href) then
      if PureName(href.value) != expected then
        Failure(PolicyViolation(Name(xml), expected, href.value))
      else
        ExpectedIsPlainName(xml);
        JoinResolveName(Parent(xml), href.value);
        Success(JoinResolve(Parent(xml), href.value))
    else
      Success(Child(Parent(xml), expected))
  }

  /** `_resolve_xsl_path` given the `href` the document declares: the
      candidate when it exists, otherwise the not-found error naming the path
      that was looked for. A returned path always exists and always carries
      the expected name. */
  function ResolveXslPath(disk: Disk, xml: Path, href: Option<string>): (r: Result<Path, ResolveError>)
    ensures r.Success? ==> Exists(disk, r.value) && Name(r.value) == ExpectedXslName(xml)
    ensures r.Success? ==> Candidate(xml, href) == Success(r.value)
    ensures r.Failure? && r.error.StylesheetNotFound? ==>
              r.error.xml == xml && !Exists(disk, r.error.searched)
              && Candidate(xml, href) == Success(r.error.searched)
    ensures r.Failure? && r.error.PolicyViolation? ==> Candidate(xml, href).Failure?
  {
    var candidate :- Candidate(xml, href);
    if Exists(disk, candidate) then Success(candidate)
    else Failure(StylesheetNotFound(xml, candidate))
  }

  /** The policy check comes before the existence check: a mismatching `href`
      fails with the policy error on every disk, even one where the file it
      names exists. */
  lemma MismatchFailsOnEveryDisk(disk: Disk, xml: Path, href: string)
    requires href != "" && PureName(href) != ExpectedXslName(xml)
    ensures ResolveXslPath(disk, xml, Some(href))
            == Failure(PolicyViolation(Name(xml), ExpectedXslName(xml), href))
  {
  }

  /** An absent or empty `href` falls back to `<stem>.xsl` next to the XML
      file: it is chosen exactly when it exists. */
  lemma FallbackNextToXml(disk: Disk, xml: Path, href: Option<string>)
    requires !HrefGiven(href)
    ensures var sibling := Child(Parent(xml), ExpectedXslName(xml));
            (ResolveXslPath(disk, xml, href).Success? <==> Exists(disk, sibling))
            && (Exists(disk, sibling) ==> ResolveXslPath(disk, xml, href) == Success(sibling))
            && (!Exists(disk, sibling) ==>
                  ResolveXslPath(disk, xml, href) == Failure(StylesheetNotFound(xml, sibling)))
  {
  }

  /** The disk matters only through whether the candidate exists: two disks
      that agree on it give the same outcome. */
  lemma ResolveDependsOnlyOnCandidate(d1: Disk, d2: Disk, xml: Path, href: Option<string>)
    requires Candidate(xml, href).Success? ==>
               (Exists(d1, Candidate(xml, href).value) <==> Exists(d2, Candidate(xml, href).value))
    ensures ResolveXslPath(d1, xml, href) == ResolveXslPath(d2, xml, href)
  {
  }

  /** The expected name has no separator when the XML file's name has none. */
  lemma ExpectedHasNoSeparator(xml: Path)
    requires '/' !in Name(xml)
    ensures '/' !in ExpectedXslName(xml)
  {
    var n := Name(xml);
    assert Stem(n) + Suffix(n) == n;
    assert forall k :: 0 <= k < |Stem(n)| ==> Stem(n)[k] == n[k];
  }

  /** The components of `../<folder>/<name>`. */
  lemma SiblingComponents(folder: string, name: string)
    requires '/' !in folder && folder != "" && folder != "."
    requires '/' !in name && name != "" && name != "."
    ensures Components("../" + folder + "/" + name) == ["..", folder, name]
  {
    var rest := folder + "/" + name;
    var href := "../" + folder + "/" + name;
    assert href == ".." + "/" + rest;
    SplitOnSep("..", '/', rest);
    SplitOnSep(folder, '/', name);
    SplitOnPlain(name, '/');
    var pieces := ["..", folder, name];
    assert SplitOn(href, '/') == pieces;
    assert Keep(pieces[2..]) == [name] by {
      assert pieces[2..][1..] == [];
      assert Keep([]) == [];
    }
    assert pieces[1..][1..] == pieces[2..];
    assert Keep(pieces[1..]) == [folder, name];
    assert Keep(pieces) == [".."] + Keep(pieces[1..]);
  }

  /** Climbing one level and descending twice. */
  lemma ClimbSibling(dir: Path, folder: string, name: string)
    requires folder != ".." && name != ".."
    ensures Climb(dir.parts, ["..", folder, name]) == Child(Child(Parent(dir), folder), name).parts
  {
    var pieces := ["..", folder, name];
    var up := Parent(dir).parts;
    assert pieces[1..][1..][1..] == [];
    assert pieces[1..][1..] == [name];
    assert Climb(dir.parts, pieces) == Climb(up, pieces[1..]);
    assert Climb(up, pieces[1..]) == Climb(up + [folder], [name]);
  }

  /** An `href` that climbs out of the XML file's folder into a sibling folder,
      `../<folder>/<stem>.xsl`, selects the expected name in that sibling
      folder (at the root, `..` stays at the root). */
  lemma SiblingFolderHref(disk: Disk, xml: Path, folder: string)
    requires '/' !in Name(xml)
    requires '/' !in folder && folder != "" && folder != "." && folder != ".."
    ensures var expected := ExpectedXslName(xml);
            var target := Child(Child(Parent(Parent(xml)), folder), expected);
            ResolveXslPath(disk, xml, Some("../" + folder + "/" + expected))
              == if Exists(disk, target) then Success(target) else Failure(StylesheetNotFound(xml, target))
  {
    var expected := ExpectedXslName(xml);
    ExpectedHasNoSeparator(xml);
    ExpectedIsPlainName(xml);
    var href := "../" + folder + "/" + expected;
    SiblingComponents(folder, expected);
    ClimbSibling(Parent(xml), folder, expected);
    assert !IsAbsolute(href);
    assert JoinResolve(Parent(xml), href) == Child(Child(Parent(Parent(xml)), folder), expected);
  }
}

=== FILE: stylesheet_pi.dfy ===
/** Reading the stylesheet reference out of the `xml-stylesheet` processing
    instructions in front of the document's root element
    (`_read_stylesheet_href_from_pi`). The parser itself is not modelled: its
    result is the list of nodes before the root, nearest first. */
module StylesheetPi {
  import opened Wrappers

  /** A node in front of the root element. */
  datatype Node = ProcessingInstruction(target: string, text: string) | Comment(text: string)

  const StylesheetTarget: string := "xml-stylesheet"

  /** An `xml-stylesheet` instruction with non-empty text: the scan stops at
      the first one of these. (`lxml` reports missing text as `None`, which the
      source treats like the empty text.) */
  predicate Decides(n: Node) {
    n.ProcessingInstruction? && n.target == StylesheetTarget && n.text != ""
  }

  // ---------------------------------------------------------------- shlex.split

  /** The white space `shlex` splits on. */
  predicate IsShlexSpace(c: char) {
    c == ' ' || c == '\t' || c == '\r' || c == '\n'
  }

  predicate IsQuote(c: char) {
    c == '"' || c == '\''
  }

  /** The finished token, if one is open. */
  function Emit(tok: Option<string>): seq<string> {
    match tok
    case None => []
    case Some(t) => [t]
  }

  /** The POSIX-mode `shlex` lexer with `whitespace_split`, over the rest of
      the text: `tok` is the token being built (present once any character or
      quote of it was read), `quote` the quote being inside of, `acc` the
      tokens done. Quotes group and are dropped; an open quote at the end is
      the error `shlex` raises. */
  function Lex(rest: string, tok: Option<string>, quote: Option<char>, acc: seq<string>): Result<seq<string>, string>
    decreases |rest|
  {
    if |rest| == 0 then
      if quote.Some? then Failure("No closing quotation") else Success(acc + Emit(tok))
    else
      var c := rest[0];
      if quote.Some? then
        if c == quote.value then Lex(rest[1..], tok, None, acc)
        else Lex(rest[1..], Some(tok.GetOr("") + [c]), quote, acc)
      else if IsShlexSpace(c) then Lex(rest[1..], None, None, acc + Emit(tok))
      else if IsQuote(c) then Lex(rest[1..], Some(tok.GetOr("")), Some(c), acc)
      else Lex(rest[1..], Some(tok.GetOr("") + [c]), None, acc)
  }

  /** `shlex.split(text)`. */
  function Tokenize(text: string): Result<seq<string>, string> {
    Lex(text, None, None, [])
  }

  predicate QuoteFree(s: string) {
    forall i :: 0 <= i < |s| ==> !IsQuote(s[i])
  }

  /** The run of non-white-space characters at the start of `s`. */
  function WordRun(s: string): (w: string)
    ensures |w| <= |s| && w == s[..|w|]
    ensures forall i :: 0 <= i < |w| ==> !IsShlexSpace(w[i])
    ensures |w| < |s| ==> IsShlexSpace(s[|w|])
  {
    if |s| == 0 || IsShlexSpace(s[0]) then "" else [s[0]] + WordRun(s[1..])
  }

  /** Reference splitting: the maximal runs of non-white-space characters. */
  function Words(s: string): seq<string>
    decreases |s|
  {
    if |s| == 0 then []
    else if IsShlexSpace(s[0]) then Words(s[1..])
    else
      var w := WordRun(s);
      [w] + Words(s[|w|..])
  }

  /** The tokens still to come when the open token is `tok` and `rest` is left. */
  function PlainTail(tok: Option<string>, rest: string): seq<string> {
    match tok
    case None => Words(rest)
    case Some(t) =>
      var w := WordRun(rest);
      [t + w] + Words(rest[|w|..])
  }

  lemma {:induction false} LexPlain(rest: string, tok: Option<string>, acc: seq<string>)
    requires QuoteFree(rest)
    ensures Lex(rest, tok, None, acc) == Success(acc + PlainTail(tok, rest))
    decreases |rest|
  {
    if |rest| > 0 {
      var c := rest[0];
      var r' := rest[1..];
      assert QuoteFree(r') by {
        assert forall i :: 0 <= i < |r'| ==> r'[i] == rest[i + 1];
      }
      if IsShlexSpace(c) {
        LexPlain(r', None, acc + Emit(tok));
        assert WordRun(rest) == "" && rest[0..] == rest;
        assert Words(rest) == Words(r');
        match tok {
          case None =>
            assert acc + Emit(tok) == acc;
          case Some(t) =>
            assert t + "" == t;
            assert PlainTail(tok, rest) == [t] + Words(r');
            assert acc + [t] + Words(r') == acc + ([t] + Words(r'));
        }
      } else {
        var t' := tok.GetOr("");
        LexPlain(r', Some(t' + [c]), acc);
        var w' := WordRun(r');
        assert WordRun(rest) == [c] + w';
        assert rest[|[c] + w'|..] == r'[|w'|..];
        assert t' + [c] + w' == t' + ([c] + w');
        match tok {
          case None =>
            assert t' + [c] == [c];
            assert Words(rest) == [WordRun(rest)] + Words(rest[|WordRun(rest)|..]);
            assert PlainTail(tok, rest) == [[c] + w'] + Words(r'[|w'|..]);
          case Some(t) =>
        }
      }
    } else {
      assert WordRun(rest) == "" && rest[0..] == rest && Words(rest) == [];
      match tok {
        case None =>
        case Some(t) =>
          assert t + "" == t;
          assert PlainTail(tok, rest) == [t];
          assert acc + [] == acc;
      }
    }
  }

  /** On text without quotes, `shlex.split` is splitting on white space. */
  lemma TokenizeQuoteFree(text: string)
    requires QuoteFree(text)
    ensures Tokenize(text) == Success(Words(text))
  {
    LexPlain(text, None, []);
    assert [] + Words(text) == Words(text);
  }

  // ---------------------------------------------------------------- attributes

  /** Index of the first `c` in `s`. */
  function FirstIndex(s: string, c: char): (r: Option<nat>)
    ensures r.Some? ==> r.value < |s| && s[r.value] == c && c !in s[..r.value]
    ensures r.None? ==> c !in s
  {
    if |s| == 0 then None
    else if s[0] == c then Some(0)
    else match FirstIndex(s[1..], c)
      case None => None
      case Some(i) => assert s[..i + 1] == [s[0]] + s[1..][..i]; Some(i + 1)
  }

  /** `part.split("=", 1)` for a token containing `=`: the key before the
      first `=` and the value after it. */
  datatype Attr = Attr(key: string, value: string)

  function SplitAttr(tok: string): (a: Option<Attr>)
    ensures a.None? <==> '=' !in tok
    ensures a.Some? ==> tok == a.value.key + "=" + a.value.value && '=' !in a.value.key
  {
    match FirstIndex(tok, '=')
    case None => None
    case Some(i) =>
      assert tok == tok[..i] + "=" + tok[i + 1..];
      Some(Attr(tok[..i], tok[i + 1..]))
  }

  /** The dictionary the source builds: tokens left to right, tokens without
      `=` skipped, a later key overriding an earlier one. */
  function Attrs(tokens: seq<string>): map<string, string> {
    if |tokens| == 0 then map[]
    else
      var m := Attrs(tokens[..|tokens| - 1]);
      match SplitAttr(tokens[|tokens| - 1])
      case None => m
      case Some(a) => m[a.key := a.value]
  }

  predicate HasKey(tok: string, key: string) {
    SplitAttr(tok).Some? && SplitAttr(tok).value.key == key
  }

  /** Token `j` is the last one with key `key`. */
  ghost predicate LastWithKey(tokens: seq<string>, key: string, j: int) {
    0 <= j < |tokens| && HasKey(tokens[j], key)
    && forall l :: j < l < |tokens| ==> !HasKey(tokens[l], key)
  }

  /** The dictionary after one more token. */
  lemma AttrsStep(tokens: seq<string>, key: string)
    requires |tokens| > 0
    ensures var n := |tokens| - 1;
            HasKey(tokens[n], key) ==>
              key in Attrs(tokens) && Attrs(tokens)[key] == SplitAttr(tokens[n]).value.value
    ensures var n := |tokens| - 1;
            !HasKey(tokens[n], key) ==>
              (key in Attrs(tokens) <==> key in Attrs(tokens[..n]))
              && (key in Attrs(tokens) ==> Attrs(tokens)[key] == Attrs(tokens[..n])[key])
  {
  }

  /** A key is in the dictionary exactly when some token carries it. */
  lemma {:induction false} AttrsHasKey(tokens: seq<string>, key: string)
    ensures key in Attrs(tokens) <==> exists j :: 0 <= j < |tokens| && HasKey(tokens[j], key)
    decreases |tokens|
  {
    if key in Attrs(tokens) {
      var j := KeySource(tokens, key);
    } else {
      forall j | 0 <= j < |tokens| && HasKey(tokens[j], key)
        ensures false
      {
        KeyKept(tokens, key, j);
      }
    }
  }

  /** A token carrying the key puts it into the dictionary. */
  lemma {:induction false} KeyKept(tokens: seq<string>, key: string, j: int)
    requires 0 <= j < |tokens| && HasKey(tokens[j], key)
    ensures key in Attrs(tokens)
    decreases |tokens|
  {
    var n := |tokens| - 1;
    AttrsStep(tokens, key);
    if j < n {
      var init := tokens[..n];
      assert init[j] == tokens[j];
      KeyKept(init, key, j);
    }
  }

  /** A key in the dictionary comes from some token. */
  lemma {:induction false} KeySource(tokens: seq<string>, key: string) returns (j: int)
    requires key in Attrs(tokens)
    ensures 0 <= j < |tokens| && HasKey(tokens[j], key)
    decreases |tokens|
  {
    var n := |tokens| - 1;
    AttrsStep(tokens, key);
    if HasKey(tokens[n], key) {
      j := n;
    } else {
      var init := tokens[..n];
      j := KeySource(init, key);
      assert init[j] == tokens[j];
    }
  }

  /** The value a key gets is the one from the last token carrying it. */
  lemma {:induction false} AttrsLastWins(tokens: seq<string>, key: string, j: int)
    requires LastWithKey(tokens, key, j)
    ensures key in Attrs(tokens) && Attrs(tokens)[key] == SplitAttr(tokens[j]).value.value
    decreases |tokens|
  {
    var n := |tokens| - 1;
    AttrsStep(tokens, key);
    if j < n {
      var init := tokens[..n];
      assert forall l :: j < l < n ==> init[l] == tokens[l];
      assert LastWithKey(init, key, j);
      AttrsLastWins(init, key, j);
    }
  }

  /** The `href` of one instruction's text, or the tokenizer's error. */
  function ReadHref(text: string): Result<Option<string>, string> {
    match Tokenize(text)
    case Failure(msg) => Failure(msg)
    case Success(tokens) =>
      var attrs := Attrs(tokens);
      Success(if "href" in attrs then Some(attrs["href"]) else None)
  }

  // ---------------------------------------------------- quoted pseudo-attributes

  /** One pseudo-attribute as instruction text usually carries it: `key="value"`. */
  function AttrText(a: Attr): string {
    a.key + "=\"" + a.value + "\""
  }

  /** Pseudo-attributes separated by single spaces, as in
      `type="text/xsl" href="invoice.xsl"`. */
  function AttrsText(ps: seq<Attr>): string
    decreases |ps|
  {
    if |ps| == 0 then ""
    else if |ps| == 1 then AttrText(ps[0])
    else AttrText(ps[0]) + " " + AttrsText(ps[1..])
  }

  /** The token `key=value`: the pseudo-attribute with its quotes dropped. */
  function AttrToken(a: Attr): string {
    a.key + "=" + a.value
  }

  function AttrTokens(ps: seq<Attr>): (ts: seq<string>)
    ensures |ts| == |ps| && forall i :: 0 <= i < |ps| ==> ts[i] == AttrToken(ps[i])
  {
    seq(|ps|, i requires 0 <= i < |ps| => AttrToken(ps[i]))
  }

  /** Pseudo-attributes the text form keeps apart: keys without white space,
      quotes or `=`, values without double quotes. */
  predicate WellQuoted(ps: seq<Attr>) {
    forall i :: 0 <= i < |ps| ==> PlainKey(ps[i].key) && '"' !in ps[i].value
  }

  predicate PlainKey(k: string) {
    forall i :: 0 <= i < |k| ==> !IsShlexSpace(k[i]) && !IsQuote(k[i]) && k[i] != '='
  }

  /** Outside quotes, characters that are neither white space nor quotes join
      the open token. */
  lemma {:induction false} LexWord(w: string, rest: string, tok: Option<string>, acc: seq<string>)
    requires w != ""
    requires forall i :: 0 <= i < |w| ==> !IsShlexSpace(w[i]) && !IsQuote(w[i])
    ensures Lex(w + rest, tok, None, acc) == Lex(rest, Some(tok.GetOr("") + w), None, acc)
    decreases |w|
  {
    var c := w[0];
    assert (w + rest)[0] == c && (w + rest)[1..] == w[1..] + rest;
    if |w| > 1 {
      LexWord(w[1..], rest, Some(tok.GetOr("") + [c]), acc);
      assert tok.GetOr("") + [c] + w[1..] == tok.GetOr("") + w;
    } else {
      assert w[1..] + rest == rest && [c] == w;
    }
  }

  /** Inside quotes, everything up to the closing quote joins the token, and
      the closing quote ends the quoting but not the token. */
  lemma {:induction false} LexQuotedRun(v: string, q: char, rest: string, t: string, acc: seq<string>)
    requires q !in v
    ensures Lex(v + [q] + rest, Some(t), Some(q), acc) == Lex(rest, Some(t + v), None, acc)
    decreases |v|
  {
    if |v| == 0 {
      assert v + [q] + rest == [q] + rest && ([q] + rest)[1..] == rest;
      assert t + v == t;
    } else {
      var c := v[0];
      assert (v + [q] + rest)[0] == c && (v + [q] + rest)[1..] == v[1..] + [q] + rest;
      LexQuotedRun(v[1..], q, rest, t + [c], acc);
      assert t + [c] + v[1..] == t + v;
    }
  }

  /** `key="value"` leaves the open token `key=value`. */
  lemma LexAttr(a: Attr, rest: string, acc: seq<string>)
    requires PlainKey(a.key) && '"' !in a.value
    ensures Lex(AttrText(a) + rest, None, None, acc) == Lex(rest, Some(AttrToken(a)), None, acc)
  {
    var kq := a.key + "=";
    var tail := "\"" + a.value + "\"" + rest;
    assert AttrText(a) + rest == kq + tail;
    assert forall i :: 0 <= i < |a.key| ==> kq[i] == a.key[i];
    LexWord(kq, tail, None, acc);
    assert "" + kq == kq;
    assert tail[0] == '"' && tail[1..] == a.value + ['"'] + rest;
    LexQuotedRun(a.value, '"', rest, kq, acc);
  }

  /** A space outside quotes ends the open token. */
  lemma LexSpace(r: string, t: string, acc: seq<string>)
    ensures Lex(" " + r, Some(t), None, acc) == Lex(r, None, None, acc + [t])
  {
    assert (" " + r)[0] == ' ' && (" " + r)[1..] == r;
  }

  lemma {:induction false} LexAttrs(ps: seq<Attr>, acc: seq<string>)
    requires |ps| > 0 && WellQuoted(ps)
    ensures Lex(AttrsText(ps), None, None, acc) == Success(acc + AttrTokens(ps))
    decreases |ps|
  {
    var t0 := AttrToken(ps[0]);
    if |ps| == 1 {
      LexAttr(ps[0], "", acc);
      assert AttrsText(ps) + "" == AttrsText(ps);
      assert AttrTokens(ps) == [t0];
    } else {
      var more := AttrsText(ps[1..]);
      assert AttrsText(ps) == AttrText(ps[0]) + (" " + more);
      LexAttr(ps[0], " " + more, acc);
      LexSpace(more, t0, acc);
      assert WellQuoted(ps[1..]) by {
        assert forall i :: 0 <= i < |ps| - 1 ==> ps[1..][i] == ps[i + 1];
      }
      LexAttrs(ps[1..], acc + [t0]);
      assert acc + [t0] + AttrTokens(ps[1..]) == acc + AttrTokens(ps) by {
        assert AttrTokens(ps) == [t0] + AttrTokens(ps[1..]);
      }
    }
  }

  /** Quoted pseudo-attributes tokenise to their `key=value` tokens, in order:
      the quotes are dropped and nothing else changes. */
  lemma TokenizeAttrs(ps: seq<Attr>)
    requires WellQuoted(ps)
    ensures Tokenize(AttrsText(ps)) == Success(AttrTokens(ps))
  {
    if |ps| > 0 {
      LexAttrs(ps, []);
      assert [] + AttrTokens(ps) == AttrTokens(ps);
    }
  }

  /** Inside quotes that are never closed, the rest of the text is consumed
      and the lexer fails. */
  lemma {:induction false} LexOpenQuote(v: string, q: char, t: string, acc: seq<string>)
    requires q !in v
    ensures Lex(v, Some(t), Some(q), acc).Failure?
    decreases |v|
  {
    if |v| > 0 {
      assert v[0] != q;
      LexOpenQuote(v[1..], q, t + [v[0]], acc);
    }
  }

  /** A pseudo-attribute whose closing quote is missing makes `shlex.split`
      raise, and so makes reading the `href` fail, whatever follows. */
  lemma UnclosedQuoteFails(key: string, v: string)
    requires PlainKey(key) && '"' !in v
    ensures Tokenize(key + "=\"" + v).Failure?
    ensures ReadHref(key + "=\"" + v).Failure?
  {
    var kq := key + "=";
    var tail := "\"" + v;
    assert key + "=\"" + v == kq + tail;
    assert forall i :: 0 <= i < |key| ==> kq[i] == key[i];
    LexWord(kq, tail, None, []);
    assert tail[0] == '"' && tail[1..] == v;
    LexOpenQuote(v, '"', "" + kq, []);
  }

  /** Splitting `key=value` at its first `=` gives back the key and the value
      when the key has no `=`. */
  lemma SplitAttrToken(a: Attr)
    requires '=' !in a.key
    ensures SplitAttr(AttrToken(a)) == Some(a)
  {
    var tok := AttrToken(a);
    assert tok[|a.key|] == '=';
    var b := SplitAttr(tok).value;
    assert forall i :: 0 <= i < |a.key| ==> tok[i] == a.key[i];
    assert forall i :: 0 <= i < |b.key| ==> tok[i] == b.key[i];
    assert tok[|b.key|] == '=';
    assert |b.key| == |a.key|;
    assert b.key == tok[..|a.key|] == a.key;
    assert b.value == tok[|a.key| + 1..] == a.value;
  }

  /** Pseudo-attribute `j` is the last one named `key`. */
  ghost predicate LastAttr(ps: seq<Attr>, key: string, j: int) {
    0 <= j < |ps| && ps[j].key == key && forall l :: j < l < |ps| ==> ps[l].key != key
  }

  /** Of quoted pseudo-attributes, the `href` read is the value of the last
      one named `href`, and there is none exactly when none is named `href`. */
  lemma ReadHrefQuoted(ps: seq<Attr>)
    requires WellQuoted(ps)
    ensures ReadHref(AttrsText(ps)).Success?
    ensures ReadHref(AttrsText(ps)).value.None? <==> forall i :: 0 <= i < |ps| ==> ps[i].key != "href"
    ensures forall j :: LastAttr(ps, "href", j) ==> ReadHref(AttrsText(ps)).value == Some(ps[j].value)
  {
    TokenizeAttrs(ps);
    var ts := AttrTokens(ps);
    forall i | 0 <= i < |ps|
      ensures SplitAttr(ts[i]) == Some(ps[i])
    {
      SplitAttrToken(ps[i]);
    }
    AttrsHasKey(ts, "href");
    forall j | LastAttr(ps, "href", j)
      ensures "href" in Attrs(ts) && Attrs(ts)["href"] == ps[j].value
    {
      assert LastWithKey(ts, "href", j);
      AttrsLastWins(ts, "href", j);
    }
  }

  // ---------------------------------------------------------------- the scan

  /** `_read_stylesheet_href_from_pi` over the nodes in front of the root,
      nearest first: the first deciding instruction's `href` (possibly none),
      or none when no instruction decides. */
  function ScanHref(prev: seq<Node>): Result<Option<string>, string>
    decreases |prev|
  {
    if |prev| == 0 then Success(None)
    else if Decides(prev[0]) then ReadHref(prev[0].text)
    else ScanHref(prev[1..])
  }

  /** Node `k` is the nearest deciding instruction. */
  ghost predicate NearestDecider(prev: seq<Node>, k: int) {
    0 <= k < |prev| && Decides(prev[k]) && forall j :: 0 <= j < k ==> !Decides(prev[j])
  }

  /** The nearest instruction with text decides alone, whatever lies further
      back (even when it has no `href`); instructions with empty text, other
      targets and comments are passed over; without a deciding instruction
      there is no `href`. */
  lemma {:induction false} ScanHrefNearestWins(prev: seq<Node>)
    ensures forall k :: NearestDecider(prev, k) ==> ScanHref(prev) == ReadHref(prev[k].text)
    ensures (forall j :: 0 <= j < |prev| ==> !Decides(prev[j])) ==> ScanHref(prev) == Success(None)
    decreases |prev|
  {
    if |prev| > 0 && !Decides(prev[0]) {
      var tail := prev[1..];
      ScanHrefNearestWins(tail);
      assert forall j :: 0 <= j < |tail| ==> tail[j] == prev[j + 1];
      forall k | NearestDecider(prev, k)
        ensures NearestDecider(tail, k - 1)
      {
      }
    }
  }
}

=== FILE: text.dfy ===
/** Character classes, ASCII case folding, `str.strip()` and case-insensitive
    substring search, as the viewer's string handling uses them. */
module Text {
  import opened Wrappers

  /** Python's `str.isspace()`; `str.strip()` and the regular-expression class
      `\s` use the same set. */
  predicate IsSpace(c: char) {
    || ('\t' <= c <= '\r')
    || ('\U{1C}' <= c <= '\U{1F}')
    || c == ' ' || c == '\U{85}' || c == '\U{A0}' || c == '\U{1680}'
    || ('\U{2000}' <= c <= '\U{200A}')
    || c == '\U{2028}' || c == '\U{2029}' || c == '\U{202F}' || c == '\U{205F}' || c == '\U{3000}'
  }

  predicate AllSpace(s: string) {
    forall i :: 0 <= i < |s| ==> IsSpace(s[i])
  }

  /** Length-preserving ASCII lower-casing of one character. */
  function LowerChar(c: char): char {
    if 'A' <= c <= 'Z' then (c as int + 32) as char else c
  }

  /** `s.lower()`, folding ASCII letters only (see README on U+0130). */
  function Lower(s: string): (r: string)
    ensures |r| == |s|
    ensures forall i :: 0 <= i < |s| ==> r[i] == LowerChar(s[i])
  {
    seq(|s|, i requires 0 <= i < |s| => LowerChar(s[i]))
  }

  /** Number of white-space characters at the start of `s`. */
  function LeadingSpaces(s: string): (n: nat)
    ensures n <= |s|
    ensures AllSpace(s[..n])
    ensures n < |s| ==> !IsSpace(s[n])
    decreases |s|
  {
    if |s| > 0 && IsSpace(s[0]) then 1 + LeadingSpaces(s[1..]) else 0
  }

  /** Number of white-space characters at the end of `s`. */
  function TrailingSpaces(s: string): (n: nat)
    ensures n <= |s|
    ensures AllSpace(s[|s| - n..])
    ensures n < |s| ==> !IsSpace(s[|s| - n - 1])
    decreases |s|
  {
    if |s| > 0 && IsSpace(s[|s| - 1]) then
      var t := s[..|s| - 1];
      var m := TrailingSpaces(t);
      assert forall i :: |s| - (m + 1) <= i < |s| - 1 ==> s[i] == t[i];
      assert AllSpace(s[|s| - (m + 1)..]) by {
        var u := s[|s| - (m + 1)..];
        forall i | 0 <= i < |u|
          ensures IsSpace(u[i])
        {
          if i < m {
            assert u[i] == t[|t| - m..][i];
          }
        }
      }
      1 + m
    else 0
  }

  /** `s.strip()`: `s` with the white space at both ends removed. The result
      begins and ends with a non-space, and is empty exactly when `s` is all
      white space; `StripKeepsMiddle` shows it is the middle of `s`. */
  function Strip(s: string): (r: string)
    ensures r == "" || (!IsSpace(r[0]) && !IsSpace(r[|r| - 1]))
    ensures r == "" <==> AllSpace(s)
  {
    var a := LeadingSpaces(s);
    var rest := s[a..];
    var b := TrailingSpaces(rest);
    var r := rest[..|rest| - b];
    assert r != "" ==> r[0] == s[a] && r[|r| - 1] == rest[|rest| - b - 1];
    assert r == "" ==> AllSpace(s) by {
      if a < |s| {
        assert !IsSpace(rest[0]);
        assert b < |rest|;
      } else {
        assert s == s[..a];
      }
    }
    r
  }

  /** What `Strip` cuts off is white space at the two ends: the input is some
      white space, the result, and more white space. */
  lemma StripKeepsMiddle(s: string) returns (a: nat)
    ensures a + |Strip(s)| <= |s| && Strip(s) == s[a..a + |Strip(s)|]
    ensures AllSpace(s[..a]) && AllSpace(s[a + |Strip(s)|..])
  {
    a := LeadingSpaces(s);
    var rest := s[a..];
    var b := TrailingSpaces(rest);
    var c := |s| - b;
    assert rest[..|rest| - b] == s[a..c];
    assert rest[|rest| - b..] == s[c..];
  }

  /** Stripping a string that does not begin or end with white space changes nothing. */
  lemma StripTrimmed(s: string)
    requires s == "" || (!IsSpace(s[0]) && !IsSpace(s[|s| - 1]))
    ensures Strip(s) == s
  {
    if s != "" {
      assert LeadingSpaces(s) == 0;
      assert TrailingSpaces(s) == 0;
    }
  }

  /** `pat` (lower-case) occurs at index `i` of `s.lower()`. */
  predicate MatchAt(s: string, pat: string, i: int) {
    0 <= i && i + |pat| <= |s| && forall j :: 0 <= j < |pat| ==> LowerChar(s[i + j]) == pat[j]
  }

  /** `s.lower().find(pat, from)`, with Python's -1 as `None`: the first index at
      or after `from` where `pat` occurs. */
  function Find(s: string, pat: string, from: nat): (r: Option<nat>)
    ensures r.Some? ==> from <= r.value && MatchAt(s, pat, r.value)
    ensures r.Some? ==> forall j :: from <= j < r.value ==> !MatchAt(s, pat, j)
    ensures r.None? ==> forall j :: from <= j ==> !MatchAt(s, pat, j)
    decreases |s| - from
  {
    if from + |pat| > |s| then None
    else if MatchAt(s, pat, from) then Some(from)
    else Find(s, pat, from + 1)
  }

  /** `pat` occurs first at `i`. */
  ghost predicate FirstAt(s: string, pat: string, i: int) {
    MatchAt(s, pat, i) && forall j :: 0 <= j < i ==> !MatchAt(s, pat, j)
  }

  /** `pat` occurs nowhere in `s`. */
  ghost predicate Absent(s: string, pat: string) {
    forall j :: !MatchAt(s, pat, j)
  }

  /** Searching from the start finds the first occurrence, and finds nothing
      exactly when there is none. */
  lemma FindFromStart(s: string, pat: string)
    ensures Find(s, pat, 0).None? <==> Absent(s, pat)
    ensures forall i :: FirstAt(s, pat, i) <==> Find(s, pat, 0) == Some(i)
  {
  }
}

=== FILE: wrappers.dfy ===
/** Failure-compatible Option and Result types used throughout the model. */
module Wrappers {

  /** An optional value: Python's `None` or a present value. */
  datatype Option<+T> = None | Some(value: T) {

    predicate IsFailure() {
      None?
    }

    function PropagateFailure<U>(): Option<U>
      requires None?
    {
      None
    }

    function Extract(): T
      requires Some?
    {
      value
    }

    /** The value, or `default` when absent (Python's `x if x is not None else default`). */
    function GetOr(default: T): T {
      match this
      case Some(v) => v
      case None => default
    }
  }

  /** A value or the error that the source would raise instead. */
  datatype Result<+R, +E> = Success(value: R) | Failure(error: E) {

    predicate IsFailure() {
      Failure?
    }

    function PropagateFailure<U>(): Result<U, E>
      requires Failure?
    {
      Failure(error)
    }

    function Extract(): R
      requires Success?
    {
      value
    }
  }
}
